=== FILE: README.md ===
# patchwork-api indexer, modelled in Dafny

This project models the core of the patchwork-api plugin for a Secure
Scuttlebutt server. The plugin reads every message of the local log in
order. It hands each message to the handler registered for its content type.
The handlers maintain the in-memory views that the API serves:

- the global post index, the per-author post indexes, the inbox and the
  advert index, each kept newest first by `sortedInsert`;
- the thread forest, with replies, parent pointers and cumulative reply
  counts;
- the profiles and the name bindings (`names`, `ids`, `nameTrustRanks`),
  resolved by trust rank;
- the trusted set, which the local feed's `trust` messages declare.

The model also covers the publishers that validate user input and build the
content of new messages, including mention extraction. It covers the paging
helper behind the list getters, the count getters and the feed-key
conversion.

Modules:

- `Wrappers`: `Option`, `Result` and JavaScript string truthiness.
- `SortedIndex`: `sortedInsert` and `contains`.
- `Text`: `empty` (trim-based) and `noSpaces`, over the `\s` whitespace set.
- `AssocList`: JavaScript objects with string keys in insertion order, which
  is JavaScript's iteration order for keys that are not array indices. These
  back `assignedBy` and `assignedTo`, where iteration order matters.
- `Messages`: messages and their typed links.
- `IndexState`: the shared state, its initial value, `getProfile` and the
  `myposts` alias.
- `Names`: name resolution, the `init`, `name` and `trust` handlers.
- `Threads`: one `replies-to` link, including the parent walk.
- `Posts`: the `post` and `advert` handlers.
- `Processor`: type dispatch and the invariant that all handlers keep.
- `Mentions`: the mention regular expression and its `exec` loop.
- `Api`: the publishers, `o`, the list-getter window, the count getters and
  `msgToFeedDBKey`.

Handlers are pure functions from state to state. A handler that mutates
several arrays in place becomes a chain of functional updates. The local
feed id (`sbot.feed.id`) is a parameter. `myposts` is read as the local
feed's entry of `postsByAuthor`: the two are the same array in the source.
Two encodings differ from the source:

- The trust ranks 0, 0.5 and 1 are written as the integers 0, 1 and 2
  (`RankSelf`, `RankTrusted`, `RankMine`).
- A null name is stored in `ids` under the key `"null"`, as JavaScript does.

Four behaviours of the code are worth stating up front:

- Every `init` message overwrites `createdAt` (processor.js:9-12), so the
  last `init` handled wins.
- Handling the same message twice is not idempotent: the author index has
  no duplicate guard (processor.js:106-108).
  `Processor.RepeatedPostListedTwice` shows a post listed twice in its
  author's index.
- The `post` event fires for every new top-level post, from any author
  (processor.js:101-104).
- A reply from a message that already has a thread node replaces that node
  (processor.js:81). The node's earlier replies keep pointing at it, but it
  no longer lists or counts them (`Threads.ThreadReplyOverwrites`).

## Model

| member | source | states |
|---|---|---|
| SortedIndex.SortedInsert | processor.js:185-193 | exactly one entry is added; the result is headed by the new entry or by an old head that is not older; a newest-first index stays newest first |
| SortedIndex.InsertIsSpliced | processor.js:185-193 | the scan puts the new entry before the first entry with a strictly smaller timestamp, or at the end if there is none, and leaves every other entry in order |
| SortedIndex.InsertTiesAfter | processor.js:185-193 | on a sorted index the new entry lands after every entry with an equal timestamp and before every entry with a smaller one |
| SortedIndex.InsertAddsOne | processor.js:185-193 | inserting is a permutation of the old index plus the new entry: nothing is lost or duplicated |
| SortedIndex.Contains | processor.js:195-200 | `contains` is truthy exactly when some entry carries the key |
| SortedIndex.ContainsAfterInsert | processor.js:185-200 | after an insert, a key is contained exactly when it is the inserted key or was contained before |
| SortedIndex.InsertKeepsUnique | processor.js:185-200 | inserting a key that is not contained keeps every key unique |
| Text.EmptyGuard | processor.js:120-122 | `empty` accepts a text exactly when it is present and has a non-whitespace character; the empty string is refused |
| Text.NoSpaces | processor.js:180-183 | every whitespace character becomes `_`, every other character is kept, the length is unchanged, and no whitespace remains |
| Text.NoSpacesKeepsName | processor.js:180-183 | a name that passes the `empty` guard stays non-empty and non-blank after `noSpaces`, and `noSpaces` is idempotent |
| AssocList.Put | processor.js:29-33 | assigning `obj[k] = v` makes `k` read `v`, leaves every other key's value alone, and appends `k` to the key order only when it is new |
| AssocList.PutKeepsDistinct | processor.js:29-33 | the key order never lists a key twice |
| IndexState.InitialState | index.js:12-26 | the initial state: empty indexes, profiles, name maps, trusted set and forest; `postsByAuthor` holds only the local feed's (`myposts`) entry, and it is empty |
| IndexState.GetProfile | processor.js:124-137 | `getProfile` creates the default profile only for an unknown id; it keeps every existing profile and changes nothing else |
| IndexState.PostsBy | index.js:131-133 | an unknown author's index reads as empty |
| IndexState.MyPosts | index.js:15-26 | `myposts` is the very list stored as the local feed's entry of `postsByAuthor` |
| Names.FirstTrustedIndex | processor.js:154-160 | the `for…in` scan stops at the first assigner in insertion order that gave a name and is trusted; none before it qualifies |
| Names.Resolve | processor.js:139-161 | the resolved binding is one the sources offer, with the highest rank among them: the local feed keeps its self name, then the local feed's assignment, then the first trusted assigner, else the self name |
| Names.SelfNamesOnly | test/names.js:5-29 | with no names given by others, every identity resolves to its self name |
| Names.LocalAssignmentWins | processor.js:145-151 | a name the local feed gives another feed becomes that feed's name at the top rank |
| Names.RebuildNamesFor | processor.js:139-172 | `names[pid]` and `nameTrustRanks[pid]` get the resolved binding; `ids[name]` moves to `pid` exactly when the claim rule allows; profiles gain `pid` only |
| Names.ReverseLookupRule | processor.js:163-171 | `ids[name]` names `pid` afterwards if and only if the claim rule held or it already did; no other `ids` entry changes and none is removed |
| Names.RebuildKeepsOwnersRanked | processor.js:165-171 | every owner of an `ids` entry keeps a recorded rank, so the comparison on line 168 never meets an undefined rank |
| Names.RebuildKeepsRanksAtMostMine | processor.js:144-171 | a rebuild only records one of the three trust levels, so no rank exceeds the local feed's own |
| Names.RebuildEach | processor.js:176-177 | after rebuilding a list of ids, each carries the binding resolved in the final state; every other id keeps its name and rank |
| Names.RebuildNamesBy | processor.js:174-178 | exactly the ids that `pid` has named are rebuilt; the names of all others are unchanged |
| Names.SetAssignedBy | processor.js:28-30 | only `target.assignedBy[author]` changes, to the name; the author keeps its place in the key order, or is appended when new |
| Names.SetAssignedTo | processor.js:31-33 | only `author.assignedTo[target]` changes, to the name; the target keeps its place in the key order, or is appended when new |
| Names.BindingFrame | processor.js:139-161 | the resolved binding depends only on the self name, the ordered names given by others, and the trusted set |
| Names.AssignRebuildsTarget | processor.js:163-171 | the rebuild in one assignment records the target's resolved rank and gives it `ids[name]` exactly by the claim rule against the previous owners and ranks |
| Names.Assign | processor.js:27-34 | one `names` link updates both assignment maps, keeping their key order and appending a new key, leaves every other profile's maps alone, and rebuilds only the target's name |
| Names.AssignAll | processor.js:22-35 | after all links, every target with a feed carries the author's name in both maps and its name is the binding resolved in the final state; links without a feed are skipped; identities outside the targets keep their given names and their names |
| Names.NamesLinks | processor.js:21 | the `names` links are exactly the links with rel `names` |
| Names.NamesLinksAppend | processor.js:21 | the `names` filter keeps link order: filtering a concatenation is concatenating the filtered parts |
| Names.SingleNamesLink | processor.js:21-35 | a `name` message with one `names` link to a feed is exactly one assignment to that feed |
| Names.NameHandler | processor.js:14-42 | a blank name changes nothing; without `names` links the author's self name is set and re-resolved, its rank recorded and `ids[name]` claimed by the claim rule; with links each target gets the name in both maps and ends with its freshly resolved name; the trusted set and the indexes never change |
| Names.TrustOne | processor.js:52-58 | the target's trust becomes the coerced value; it is in the trusted set exactly when that value is 1; the ids it has named are re-resolved; consistency between trust and the trusted set is kept |
| Names.TrustValue | processor.js:54 | the trust level is the link's value, or 0 when the link has none |
| Names.TrustAll | processor.js:52-58 | identities no `trusts` link targets keep their trust and trusted status |
| Names.LastTrustNone | processor.js:52-58 | a feed has no last trust value exactly when no `trusts` link with a feed targets it |
| Names.TrustAllLast | processor.js:52-58 | every targeted feed ends with the value of the last link to it, and is trusted exactly when that value is 1 |
| Names.TrustHandler | processor.js:44-59 | a `trust` message from any author but the local feed changes nothing; the trusted set stays exactly the profiles with trust 1 |
| Names.TrustHandlerSingle | processor.js:44-59 | a local `trust` message with one `trusts` link is exactly one trust step for that link's feed |
| Names.InitHandler | processor.js:9-12 | the author's `createdAt` becomes the message timestamp, overwriting any earlier one; nothing else changes |
| Threads.Walk | processor.js:83-87 | the counting walk changes only counts: keys, parents and replies are unchanged |
| Threads.ChainIsParentWalk | processor.js:83-87 | the walked nodes start at the target, follow parent pointers without repeating, and end at a root when the chain is acyclic |
| Threads.WalkCountsChain | processor.js:83-87 | every node on the walked chain counts one more reply and every other node keeps its count |
| Threads.Attach | processor.js:72-81 | a missing target node is created; the reply is sorted into the target's replies; the reply gets its own empty node pointing at the target; no other node changes |
| Threads.Promote | processor.js:72-79 | a target with no node that is not yet a post is inserted into the post index at the reply's timestamp; otherwise the post index is unchanged |
| Threads.ThreadReply | processor.js:68-87 | one `replies-to` link touches only the post index and the forest, and the forest gains exactly the target and the reply |
| Threads.AddRootKeepsAcyclic | processor.js:72-73 | adding a new root keeps every parent chain finite |
| Threads.PathsAgree | processor.js:83-87 | parent pointers are a function: two parent paths from the same node are the same path |
| Threads.ChainStable | processor.js:81-87 | a parent chain that touches no changed pointer is the same chain after the change |
| Threads.ReparentKeepsAcyclic | processor.js:81 | pointing a node at an existing node whose parent chain does not contain it keeps every parent chain finite |
| Threads.AttachKeepsForest | processor.js:72-81 | attaching a reply whose target's parent chain does not contain it keeps the forest closed and acyclic, and a reply nobody pointed at stays unreplied |
| Threads.AttachKeepsCanReply | processor.js:72-81 | such an attachment leaves every other target that did not have the reply on its parent chain still without it |
| Threads.ThreadReplyShape | processor.js:68-87 | after one link the target's replies hold the reply in sorted position, the reply's node points at the target with no replies, no other parent moves, and the forest stays closed and acyclic |
| Threads.ThreadReplyOverwrites | processor.js:81 | a reply from a message that already has a node empties that node's replies and count, while its earlier replies still point at it |
| Threads.ThreadReplyKeepsCanReply | processor.js:68-87 | one link leaves every other allowed target of the same message allowed |
| Threads.ThreadReplyChain | processor.js:83-87 | the walk goes from the target up parent pointers to a root |
| Threads.ThreadReplyCounts | processor.js:83-87 | every ancestor of the reply, the target included, counts one more reply; every other node keeps its count |
| Threads.ThreadReplyKeepsSorted | processor.js:80 | every node's replies stay newest first |
| Posts.ScanLink | processor.js:67-98 | one link adds at most the message to the inbox and at most one promoted target to the post index; no profile or name changes |
| Posts.ScanLinks | processor.js:66-99 | the inbox gains the message once exactly when it replies to a local post or mentions the local feed; the message is a reply exactly when it has a `replies-to` link; without one, posts and threads are untouched |
| Posts.IndexNonReply | processor.js:101-104 | a non-reply whose key is not yet a post is inserted and announced; otherwise nothing happens |
| Posts.AddToAuthor | processor.js:106-108 | the post joins its author's index, which is created empty on first use |
| Posts.PostHandler | processor.js:61-109 | blank text changes nothing; the inbox changes exactly by relevance; the author's index always grows; a new non-reply is indexed and announced; a reply is never announced |
| Posts.AdvertHandler | processor.js:111-117 | blank text changes nothing; otherwise only the advert index grows, by the message |
| Posts.ReplyKeepsForest | processor.js:68-87 | one `replies-to` link keeps the forest closed and acyclic and keeps the message's remaining reply targets allowed |
| Posts.ScanKeepsForest | processor.js:67-99 | when no reply target has the message on its parent chain, every link keeps the forest closed and acyclic, so each walk ends at a root |
| Posts.PostKeepsForest | processor.js:61-109 | under the same condition the `post` handler keeps the forest closed and acyclic |
| Posts.ScanKeepsSound | processor.js:67-99 | the scan keeps the post index and the inbox newest first, the post index free of duplicates, and all replies sorted |
| Posts.PostKeepsSound | processor.js:61-109 | the `post` handler keeps every index newest first and the post index free of duplicate keys |
| Posts.ScanKeepsEntries | processor.js:67-99 | the scan loses no entry of the post index or the inbox |
| Processor.Dispatch | processor.js:204-217 | each known type runs its own handler; unknown types change nothing; only `post` announces, and only the message itself; sorted indexes move only for `post` and `advert`, and names and profiles only for the others |
| Processor.InitialInv | index.js:12-26 | the initial state satisfies the invariant |
| Processor.NameKeepsTrusted | processor.js:9-42 | `name` and `init` messages never break the match between trust and the trusted set |
| Processor.DispatchKeepsInv | processor.js:8-118 | every handler keeps the invariant (sorted indexes, a unique post index, `myposts` present, a closed acyclic forest, ranked `ids` owners, a consistent trusted set) for any message none of whose reply targets is the message itself or has it on its parent chain |
| Processor.DispatchKeepsEntries | processor.js:8-118 | no handler removes an entry from any index; authors are never dropped from `postsByAuthor` |
| Processor.PostKeepsEntries | processor.js:61-109 | the `post` handler loses no entry of any index |
| Processor.DispatchCountsGrow | processor.js:8-118 | the post, inbox and advert counts never go down |
| Processor.LocalPostInMyPosts | index.js:14-26 | a local post with text appears in `myposts` at its sorted position, through the alias with `postsByAuthor` |
| Processor.NonReplyAnnounced | processor.js:101-104 | a post with text and no `replies-to` link joins the post index and is announced, unless the index already lists it, in which case neither happens |
| Processor.ReplyNotAnnounced | processor.js:101-104 | a post with a `replies-to` link is never announced |
| Processor.AuthorIndexGrows | processor.js:106-108 | a post with text joins its author's index at its sorted position |
| Processor.RepeatedPostListedTwice | processor.js:106-108 | there is no duplicate guard: handling the same post twice lists it twice in its author's index |
| Mentions.FeedAt | index.js:218 | a mentioned feed is a non-empty run of class characters |
| Mentions.Search | index.js:215-216 | `exec` finds the first position at or after `lastIndex` where the expression matches, and none is skipped |
| Mentions.MatchStep | index.js:215-218 | one successful `exec` yields the next mention in text order, and `lastIndex` lands where no mention can start |
| Mentions.ExecOnce | index.js:216-218 | a successful `exec` moves `lastIndex` strictly forward and stays within the text |
| Mentions.Exec | index.js:216-219 | the loop yields at most one mention per remaining character, so it ends |
| Mentions.ExecStep | index.js:216-219 | the loop's invariant survives one `exec`, and a failed `exec` leaves no mention behind |
| Mentions.ExecFindsMentions | index.js:213-221 | the `exec` loop finds exactly the mentions: each `@` at the start or after whitespace followed by class characters, in order |
| Mentions.ExtractedFeeds | index.js:213-221 | the extracted feeds are the reference mentions of the text |
| Mentions.NoAtNoMentions | index.js:215 | a text without `@` mentions nobody |
| Mentions.MentionsArePlain | index.js:215-218 | every mention is a non-empty run of `[A-z0-9/=.+]` characters |
| Api.MentionLinks | index.js:218 | one `{feed, rel: 'mentions'}` link per feed, in order |
| Api.ExtractMentions | index.js:213-221 | one `mentions` link per mention is appended, in text order, after the existing links; nothing else changes |
| Api.PostText | index.js:165-168 | a blank text is refused with the feed error; otherwise a `post` with the text and exactly its mention links |
| Api.PostReply | index.js:169-173 | a blank text, and then a missing parent, are refused; otherwise a `post` whose first link replies to the parent, followed by the mentions |
| Api.PostAdvert | index.js:174-177 | a blank text is refused with the adverts error; otherwise an `advert` with the text and no links |
| Api.NameSelf | index.js:179-182 | a non-string or blank name is refused; otherwise a `name` message with that name and no link |
| Api.NameOther | index.js:183-187 | a missing or non-string target is refused first, then a non-string or blank name; otherwise a `name` message that links its target with rel `names` |
| Api.SliceBound | index.js:205-206 | a `slice` bound counts back from the end when negative and is clamped to the array |
| Api.Opt | index.js:190-192 | an option that is set is used; otherwise the default |
| Api.Slice | index.js:205-207 | the page is the contiguous run of the index from the clamped start to the clamped end, and empty when the end is not after the start |
| Api.Window | index.js:195-210 | a list getter's page is the contiguous run of the index from the clamped start to the clamped end, where the end defaults to `start + 30`; it is empty when the end is not after the start, and at most 30 entries long when no end is given |
| Api.DefaultPage | index.js:195-210 | without options a list getter serves the 30 newest entries |
| Api.NegativeStartPage | index.js:201-206 | a start below -30 with no end serves 30 entries from that position counted back from the end |
| Api.NegativeStartEmptyPage | index.js:201-206 | a start from -30 to -1 with no end serves nothing on an index of 30 or more entries, because the default end `start + 30` is a bound counted from the front |
| Api.EmptyWhenEndNotAfterStart | index.js:201-206 | an end at or before the start serves an empty page |
| Api.PagesTile | index.js:190-210 | consecutive pages `[a, b)` and `[b, c)` together are the page `[a, c)` |
| Api.PostsByPage | index.js:131-133 | an unknown author's page is empty |
| Api.CountsBoundPages | index.js:129-137 | each count getter returns the length of the list its list getter pages through |
| Api.CountsNeverDrop | index.js:129-137 | no message makes the post, inbox or advert count go down |
| Api.MsgToFeedDBKey | index.js:224-227 | a key exists exactly for a reference with a truthy key and a value |
| Api.FeedKeyOfMessage | index.js:224-227 | an indexed message turns into `[timestamp, author]`, and nothing turns into nothing |
| Api.MentionsAreNoReplies | index.js:165-168 | a `postText` message has no reply link |
| Api.PublishedPostIsIndexed | index.js:165-168 | a local `postText` message, once handled, is in `myposts`; if it was not yet a post, it joins the post index and is announced |
| Posts.LeadingReplyThreaded | processor.js:67-87 | a post whose first link is its only `replies-to` link gets a thread node whose parent is that link's target, and the target has a node |
| Api.PublishedReplyIsThreaded | index.js:169-173 | a local `postReply` message is not announced, is in `myposts`, and has a thread node whose parent is the given parent, which has a node too |
| Api.PublishedSelfName | index.js:179-182 | after a local `nameSelf`, the local feed's name is the given name with underscores for whitespace |
| Api.PublishedOtherName | index.js:183-187 | after a local `nameOther` about another feed, that feed's name is the given name, at the top rank; when every owner is ranked and no rank is above the local feed's, the feed also owns `ids[name]` |

## Left out

- Log access and asynchrony are not modelled. This covers:
  - the `sbot.ssb.get` lookup in `fn`;
  - the live log stream;
  - the `pinc`/`pdec` drain counter;
  - the try/catch that logs handler failures (processor.js:204-217).
  Dispatch is the sequential application of one handler per message. The
  `post` event is the handler's list of emitted messages.
- The publishers stop at the content they would append. `sbot.feed.add` is
  a call into the server. `processor.whenIndexed`, which index.js:167 calls,
  is not defined in processor.js.
- Link extraction belongs to the `ssb-msgs` library, which is not part of
  this model. A message carries its links already extracted, in visiting
  order. A `nameOther` content is taken to carry its own top-level
  `{rel: 'names', feed}` pair as its one `names` link.
- The getters that only return a piece of state are not modelled as members:
  `getProfile`, `getAllProfiles`, `getNamesById`, `getName`, `getIdsByName`,
  `getThreadMeta` and `getAllThreadMetas`. The getters that read messages
  back from the log need log access: `getMsg`, `getReplies`,
  `getPostParent`, `getThread` and `getFeed`. `getRandomAdverts` also needs
  randomness.
- Api.Window: the list getters hand each selected `{ts, key}` entry to
  `getMsg`, which would look up an object rather than a key. The model
  returns the selected entries themselves.
- Threads.Walk: on a cycle of parent pointers the source walks forever. The
  model stops at a node it has already visited. The lemmas about the forest's
  shape require a closed, acyclic forest and a reply that closes no circle
  (`CanReply`): ReparentKeepsAcyclic, AttachKeepsForest, AttachKeepsAcyclic,
  AttachKeepsCanReply, ThreadReplyShape, ThreadReplyOverwrites,
  ThreadReplyKeepsCanReply, ThreadReplyChain and the `Posts` forest lemmas.
  `Threads.WalkCountsChain`, `Threads.ThreadReplyCounts` and
  `Threads.ThreadReplyParents` hold on any forest: on a cyclic one they
  describe the model's stopping walk, which the source does not match.
- Processor.DispatchKeepsInv: it requires that no `replies-to` link of the
  message names the message itself or a message whose parent chain contains
  it. Such a link makes the new parent pointer close a circle, and the
  source's counting walk (processor.js:83-87) then never ends.
- Threads.Walk: the source continues with `state.threads[t.parent]` even
  when the parent is null, which reads the key `"null"`. The model stops at a
  node without a parent. The two differ only if some message's key is the
  string `"null"`.
- index.js:12-25 initialises neither `trustedProfiles` nor `nameTrustRanks`.
  As written, the first write to `nameTrustRanks` (processor.js:171) would
  throw, and `fn` would catch and log the error. The model starts both empty.
- Exceptions inside a handler leave partial effects in the source. For
  example, with `nameTrustRanks` uninitialised, `rebuildNamesFor` has already
  written `names[pid]` and `ids[name]` when line 171 throws. A non-string
  name is another source of exceptions: `noSpaces` throws at processor.js:19
  before any write. Fields are typed in the model and both tables start
  empty, so these paths do not arise.
- Names.TrustValue: a link's value is modelled as the integer that
  `+link.value` yields, with None for NaN or a missing value. So `+true` and
  `+"1"` are the link value 1. Non-integer numbers such as 0.5 are not
  modelled.
- JavaScript plain objects back `ids`, `threads`, `profiles` and the handler
  table, and they inherit `Object.prototype` names. A name such as
  `"constructor"` or `"toString"` makes `state.ids[name]` truthy at
  processor.js:165 before any feed claims it. A `replies-to` link to
  `"constructor"` finds a truthy thread node at processor.js:72, and line 80
  then throws on its missing `replies`. The model's maps hold only the keys
  written to them, so these keys behave like any other.
- AssocList.Put: keys are taken to be feed ids. These start with `@` and so
  are never array indices. JavaScript visits array-index keys such as `"0"`
  or `"42"` first, in ascending numeric order, so for such keys a `for…in`
  over `assignedBy` or `assignedTo` (processor.js:154, 176) would not follow
  `AssocList.Keys`.
- Api.PostText: `text` is a string. A non-string text such as `undefined`
  or a number makes `text.trim()` (index.js:166) throw a TypeError, and the
  callback is never called; the model has no such path.
- Api.PostReply: `text` is a string, so the TypeError that `text.trim()`
  (index.js:170) throws on a non-string text is not modelled.
- Api.PostAdvert: `text` is a string, so the TypeError that `text.trim()`
  (index.js:175) throws on a non-string text is not modelled.
- Api.Window: `start` and `end` are integer options. Non-numeric options and
  `start + 30` string concatenation are not modelled.
- Timestamps are unbounded integers rather than JavaScript doubles.
- JavaScript strings are UTF-16. The model's strings are sequences of code
  points. This matters only for characters outside the Basic Multilingual
  Plane, none of which is whitespace or in the mention class.

=== FILE: api.dfy ===
/**
  The read and write API the plugin exposes over the shared state: the
  publishers that validate input and build message content, the paging
  helper behind the list getters, the count getters, and the conversion of
  message cursors into feed-database keys.
 */
module Api {
  import opened Wrappers
  import opened Text
  import opened SortedIndex
  import opened Messages
  import opened IndexState
  import opened Names
  import opened Posts
  import opened Processor
  import opened Mentions
  import opened AssocList

  /** A JavaScript argument as a publisher sees it: a string, or anything else. */
  datatype JsArg = Str(s: string) | NonString

  const EmptyPostError := "Can not post an empty string to the feed"
  const MissingParentError := "Must provide a parent message to the reply"
  const EmptyAdvertError := "Can not post an empty string to the adverts"
  const NameRequiredError := "param 1 `name` string is required and must be non-empty"
  const TargetRequiredError := "param 1 `target` feed string is required"
  const OtherNameRequiredError := "param 2 `name` string is required and must be non-empty"

  /** `{ feed: f, rel: 'mentions' }`. */
  function MentionLink(f: FeedId): Link {
    Link("mentions", None, Some(f), None)
  }

  /** One `mentions` link per feed, in order. */
  function MentionLinks(fs: seq<FeedId>): (r: seq<Link>)
    ensures |r| == |fs|
    ensures forall i :: 0 <= i < |fs| ==> r[i] == MentionLink(fs[i])
  {
    seq(|fs|, i requires 0 <= i < |fs| => MentionLink(fs[i]))
  }

  /** `extractMentions(content)`: one `mentions` link per match of the
      mention expression in the text, appended in text order after the links
      the content already has. Nothing else changes. */
  function ExtractMentions(c: Content): (r: Content)
    ensures r.kind == c.kind && r.text == c.text && r.name == c.name
    ensures c.text.Some? ==> r.links == c.links + MentionLinks(MentionsFrom(c.text.value, 0))
    ensures c.text.None? ==> r.links == c.links
  {
    if c.text.Some? then c.(links := c.links + MentionLinks(ExtractedFeeds(c.text.value)))
    else c
  }

  /** `postText(text)`: a blank text is refused; otherwise a `post` content
      carrying the text and its mentions, and no reply link. */
  function PostText(text: string): (r: Result<Content, string>)
    ensures r.Err? <==> Blank(text)
    ensures r.Err? ==> r.error == EmptyPostError
    ensures r.Ok? ==>
              && r.value.kind == Some("post") && r.value.text == Some(text) && r.value.name.None?
              && r.value.links == MentionLinks(MentionsFrom(text, 0))
  {
    if Blank(text) then Err(EmptyPostError)
    else
      var c := ExtractMentions(Content(Some("post"), Some(text), None, []));
      assert c.links == [] + MentionLinks(MentionsFrom(text, 0));
      Ok(c)
  }

  /** `postReply(text, parent)`: a blank text, then a missing parent, is
      refused; otherwise a `post` content whose first link replies to the
      parent, followed by the mentions. */
  function PostReply(text: string, parent: Option<Key>): (r: Result<Content, string>)
    ensures Blank(text) ==> r == Err(EmptyPostError)
    ensures !Blank(text) && !Truthy(parent) ==> r == Err(MissingParentError)
    ensures r.Ok? <==> !Blank(text) && Truthy(parent)
    ensures r.Ok? ==>
              && r.value.kind == Some("post") && r.value.text == Some(text) && r.value.name.None?
              && r.value.links == [Link("replies-to", parent, None, None)] + MentionLinks(MentionsFrom(text, 0))
  {
    if Blank(text) then Err(EmptyPostError)
    else if !Truthy(parent) then Err(MissingParentError)
    else Ok(ExtractMentions(Content(Some("post"), Some(text), None, [Link("replies-to", parent, None, None)])))
  }

  /** `postAdvert(text)`: a blank text is refused; adverts carry no links. */
  function PostAdvert(text: string): (r: Result<Content, string>)
    ensures r.Err? <==> Blank(text)
    ensures r.Err? ==> r.error == EmptyAdvertError
    ensures r.Ok? ==> r.value == Content(Some("advert"), Some(text), None, [])
  {
    if Blank(text) then Err(EmptyAdvertError) else Ok(Content(Some("advert"), Some(text), None, []))
  }

  /** `nameSelf(name)`: the name must be a non-blank string. */
  function NameSelf(name: JsArg): (r: Result<Content, string>)
    ensures r.Ok? <==> name.Str? && !Blank(name.s)
    ensures r.Err? ==> r.error == NameRequiredError
    ensures r.Ok? ==> r.value == Content(Some("name"), None, Some(name.s), [])
  {
    if name.NonString? || Blank(name.s) then Err(NameRequiredError)
    else Ok(Content(Some("name"), None, Some(name.s), []))
  }

  /** `nameOther(target, name)`: the target must be a non-empty string, then
      the name a non-blank string; the content is itself a `names` link to
      the target. */
  function NameOther(target: JsArg, name: JsArg): (r: Result<Content, string>)
    ensures !(target.Str? && target.s != "") ==> r == Err(TargetRequiredError)
    ensures target.Str? && target.s != "" && !(name.Str? && !Blank(name.s)) ==> r == Err(OtherNameRequiredError)
    ensures r.Ok? <==> target.Str? && target.s != "" && name.Str? && !Blank(name.s)
    ensures r.Ok? ==> r.value == Content(Some("name"), None, Some(name.s), [Link("names", None, Some(target.s), None)])
  {
    if target.NonString? || target.s == "" then Err(TargetRequiredError)
    else if name.NonString? || Blank(name.s) then Err(OtherNameRequiredError)
    else Ok(Content(Some("name"), None, Some(name.s), [Link("names", None, Some(target.s), None)]))
  }

  /** `o(opts, k, def)`: the option when it is set, else the default. */
  function Opt(opts: Option<map<string, int>>, k: string, def: int): (v: int)
    ensures opts.Some? && k in opts.value ==> v == opts.value[k]
    ensures opts.None? || k !in opts.value ==> v == def
  {
    if opts.Some? && k in opts.value then opts.value[k] else def
  }

  /** `Array.prototype.slice` bound handling: a negative bound counts from
      the end, and every bound is clamped to the array. */
  function SliceBound(i: int, len: nat): (b: nat)
    ensures b <= len
    ensures 0 <= i <= len ==> b == i
    ensures i > len ==> b == len
    ensures i < 0 ==> b == if len + i < 0 then 0 else len + i
  {
    if i < 0 then (if len + i < 0 then 0 else len + i)
    else if i > len then len else i
  }

  /** `index.slice(start, end)`. */
  function Slice(ix: Index, start: int, end: int): (r: Index)
    ensures var a, b := SliceBound(start, |ix|), SliceBound(end, |ix|);
            |r| == if a < b then b - a else 0
    ensures |r| <= |ix|
    ensures var a := SliceBound(start, |ix|);
            forall i :: 0 <= i < |r| ==> a + i < |ix| && r[i] == ix[a + i]
  {
    var a, b := SliceBound(start, |ix|), SliceBound(end, |ix|);
    if a < b then ix[a..b] else []
  }

  /** The page a list getter serves: `start` defaults to 0 and `end` to
      `start + 30`. */
  function Window(ix: Index, opts: Option<map<string, int>>): (r: Index)
    ensures var start := Opt(opts, "start", 0);
            var a, b := SliceBound(start, |ix|), SliceBound(Opt(opts, "end", start + 30), |ix|);
            |r| == if a < b then b - a else 0
    ensures |r| <= |ix|
    ensures opts.None? || "end" !in opts.value ==> |r| <= 30
    ensures var a := SliceBound(Opt(opts, "start", 0), |ix|);
            forall i :: 0 <= i < |r| ==> a + i < |ix| && r[i] == ix[a + i]
  {
    var start := Opt(opts, "start", 0);
    Slice(ix, start, Opt(opts, "end", start + 30))
  }

  /** Without options a list getter serves the 30 newest entries. */
  lemma DefaultPage(ix: Index)
    ensures Window(ix, None) == if |ix| <= 30 then ix else ix[..30]
  {
  }

  /** A negative `start` below -30 with no `end` counts from the end of the
      index: it serves 30 entries from the `n`th last one. */
  lemma NegativeStartPage(ix: Index, n: nat)
    requires 30 < n <= |ix|
    ensures Window(ix, Some(map["start" := -(n as int)])) == ix[|ix| - n..|ix| - n + 30]
  {
  }

  /** A negative `start` of -30 or above with no `end` makes the default end
      `start + 30` a bound counted from the front; on an index of 30 or more
      entries it lies at or before the start, so the page is empty. */
  lemma NegativeStartEmptyPage(ix: Index, n: nat)
    requires 0 < n <= 30 <= |ix|
    ensures Window(ix, Some(map["start" := -(n as int)])) == []
  {
  }

  /** An `end` at or before `start` (both counted from the front) serves an
      empty page. */
  lemma EmptyWhenEndNotAfterStart(ix: Index, start: nat, end: nat)
    requires end <= start
    ensures Window(ix, Some(map["start" := start, "end" := end])) == []
  {
  }

  /** Consecutive pages tile the index: the page `[a, b)` followed by the
      page `[b, c)` is the page `[a, c)`, within the index. */
  lemma PagesTile(ix: Index, a: nat, b: nat, c: nat)
    requires a <= b <= c <= |ix|
    ensures Window(ix, Some(map["start" := a, "end" := b])) + Window(ix, Some(map["start" := b, "end" := c]))
            == Window(ix, Some(map["start" := a, "end" := c]))
  {
    assert ix[a..c] == ix[a..b] + ix[b..c];
  }

  /** `getPostsBy(author, opts)`: a page of the author's index, empty for an
      unknown author. */
  function PostsByPage(st: State, author: FeedId, opts: Option<map<string, int>>): (r: Index)
    ensures author !in st.postsByAuthor ==> r == []
  {
    Window(PostsBy(st, author), opts)
  }

  /** The count getters. */
  function PostCount(st: State): nat { |st.posts| }
  function InboxCount(st: State): nat { |st.inbox| }
  function AdvertCount(st: State): nat { |st.adverts| }

  /** Each count is the length of the list its getter pages through: the
      page from 0 to the count is the whole index. */
  lemma CountsBoundPages(st: State)
    ensures Window(st.posts, Some(map["start" := 0, "end" := PostCount(st)])) == st.posts
    ensures Window(st.inbox, Some(map["start" := 0, "end" := InboxCount(st)])) == st.inbox
    ensures Window(st.adverts, Some(map["start" := 0, "end" := AdvertCount(st)])) == st.adverts
  {
  }

  /** No message makes a count go down: `Processor.DispatchCountsGrow`
      restated through the three count getters. */
  lemma CountsNeverDrop(st: State, local: FeedId, msg: Message)
    ensures var r := Dispatch(st, local, msg).st;
            PostCount(st) <= PostCount(r) && InboxCount(st) <= InboxCount(r) && AdvertCount(st) <= AdvertCount(r)
  {
    DispatchCountsGrow(st, local, msg);
  }

  /** The fields of a message reference that `msgToFeedDBKey` reads. */
  datatype MsgRef = MsgRef(key: Option<Key>, value: Option<RefValue>)
  datatype RefValue = RefValue(timestamp: int, author: FeedId)

  /** `msgToFeedDBKey(v)`: a full message reference becomes the feed
      database key `[timestamp, author]`; anything else is undefined. */
  function MsgToFeedDBKey(v: Option<MsgRef>): (r: Option<(int, FeedId)>)
    ensures r.Some? <==> v.Some? && Truthy(v.value.key) && v.value.value.Some?
  {
    if v.Some? && Truthy(v.value.key) && v.value.value.Some?
    then Some((v.value.value.value.timestamp, v.value.value.value.author))
    else None
  }

  /** The reference of an indexed message. */
  function RefOf(m: Message): MsgRef {
    MsgRef(Some(m.key), Some(RefValue(m.timestamp, m.author)))
  }

  /** A message with a key turns into the key under which the feed database
      orders it: its timestamp, then its author. */
  lemma FeedKeyOfMessage(m: Message)
    requires m.key != ""
    ensures MsgToFeedDBKey(Some(RefOf(m))) == Some((m.timestamp, m.author))
    ensures MsgToFeedDBKey(None) == None
  {
  }

  /** A message is the log entry of `content` by `author`. */
  predicate Carries(msg: Message, author: FeedId, content: Content) {
    msg.author == author && msg.content == content
  }

  /** Mention links never make a message a reply. */
  lemma MentionsAreNoReplies(text: string, c: Content)
    requires PostText(text) == Ok(c)
    ensures !HasReplyLink(c.links)
  {
    forall l | l in c.links
      ensures !IsReplyLink(l)
    {
      var i :| 0 <= i < |c.links| && c.links[i] == l;
    }
  }

  /** A text the local user publishes with `postText` is, once indexed, in
      `myposts` and, unless it was indexed before, in the post index and
      announced as a `post` event. */
  lemma PublishedPostIsIndexed(st: State, local: FeedId, text: string, msg: Message)
    requires PostText(text).Ok? && Carries(msg, local, PostText(text).value)
    ensures var o := Dispatch(st, local, msg);
            && Contains(MyPosts(o.st, local), msg.key)
            && (!Contains(st.posts, msg.key) ==>
                  o.st.posts == SortedInsert(st.posts, msg.timestamp, msg.key) && o.emitted == [msg])
  {
    var c := PostText(text).value;
    assert c.kind == Some("post") && !Empty(c.text);
    MentionsAreNoReplies(text, c);
    NonReplyAnnounced(st, local, msg);
    LocalPostInMyPosts(st, local, msg);
  }

  /** A reply published with `postReply` is threaded under its parent, not
      announced, and listed in `myposts`. */
  lemma PublishedReplyIsThreaded(st: State, local: FeedId, text: string, parent: Option<Key>, msg: Message)
    requires PostReply(text, parent).Ok? && Carries(msg, local, PostReply(text, parent).value)
    ensures var o := Dispatch(st, local, msg);
            && o.emitted == [] && Contains(MyPosts(o.st, local), msg.key)
            && msg.key in o.st.threads && o.st.threads[msg.key].parent == parent
            && parent.value in o.st.threads
  {
    var c := PostReply(text, parent).value;
    assert c.kind == Some("post") && !Empty(c.text);
    assert IsReplyLink(c.links[0]) && c.links[0] in c.links;
    var rest := MentionLinks(MentionsFrom(text, 0));
    assert c.links == [c.links[0]] + rest;
    forall l | l in rest
      ensures !IsReplyLink(l)
    {
      var i :| 0 <= i < |rest| && rest[i] == l;
    }
    LeadingReplyThreaded(st, local, msg, c.links[0], rest);
    ReplyNotAnnounced(st, local, msg);
    LocalPostInMyPosts(st, local, msg);
  }

  /** Once the local user's `nameSelf` message is indexed, the local feed's
      name is the given name with whitespace turned into underscores. */
  lemma PublishedSelfName(st: State, local: FeedId, name: string, msg: Message)
    requires NameSelf(Str(name)).Ok? && Carries(msg, local, NameSelf(Str(name)).value)
    ensures var r := Dispatch(st, local, msg).st;
            local in r.names && r.names[local] == Some(NoSpaces(name))
  {
    assert NamesLinks(msg.content.links) == [];
  }

  /** Once the local user's `nameOther` message about another feed is
      indexed, that feed is known by the given name, which the local user's
      choice puts at the highest rank. */
  lemma PublishedOtherName(st: State, local: FeedId, target: FeedId, name: string, msg: Message)
    requires target != local
    requires NameOther(Str(target), Str(name)).Ok? && Carries(msg, local, NameOther(Str(target), Str(name)).value)
    ensures var r := Dispatch(st, local, msg).st;
            && target in r.names && r.names[target] == Some(NoSpaces(name))
            && target in r.nameTrustRanks && r.nameTrustRanks[target] == RankMine
            && (OwnersRanked(st) && RanksAtMostMine(st) ==> NoSpaces(name) in r.ids && r.ids[NoSpaces(name)] == target)
  {
    assert msg.content == Content(Some("name"), None, Some(name), [Link("names", None, Some(target), None)]);
    var n := NoSpaces(name);
    NoSpacesKeepsName(name);
    LocalAssignmentWins(st, local, target, n);
    AssignRebuildsTarget(st, local, local, target, n);
    SingleNamesLink(st, local, msg, target);
  }
}

=== FILE: assoc.dfy ===
/**
  Insertion-ordered association lists: the model of a JavaScript object used
  as a map from feed ids to names (`assignedBy`, `assignedTo`), whose `for
  (var id in ...)` iteration visits keys in the order they were first set.
  That is JavaScript's order for keys that are not array indices; the keys
  here are feed ids, which start with `@` and so never are.
 */
module AssocList {
  import opened Wrappers

  /** Keys are feed ids, values are names. */
  type AList = seq<(string, string)>

  /** The keys, in iteration order. */
  function Keys(l: AList): (ks: seq<string>)
    ensures |ks| == |l|
  {
    if |l| == 0 then [] else [l[0].0] + Keys(l[1..])
  }

  /** No key is bound twice, as in an object. */
  predicate DistinctKeys(l: AList) {
    Distinct(Keys(l))
  }

  predicate Distinct(ks: seq<string>) {
    forall i, j :: 0 <= i < j < |ks| ==> ks[i] != ks[j]
  }

  /** `obj[k]`: the value bound to `k`, if any. */
  function Get(l: AList, k: string): (r: Option<string>)
    ensures r.None? <==> k !in Keys(l)
    ensures r.Some? ==> (k, r.value) in l
  {
    if |l| == 0 then None
    else if l[0].0 == k then Some(l[0].1)
    else Get(l[1..], k)
  }

  /** `obj[k] = v`: an existing key keeps its position, a new key goes last. */
  function Put(l: AList, k: string, v: string): (r: AList)
    ensures Get(r, k) == Some(v)
    ensures forall k' :: k' != k ==> Get(r, k') == Get(l, k')
    ensures Keys(r) == if k in Keys(l) then Keys(l) else Keys(l) + [k]
  {
    if |l| == 0 then [(k, v)]
    else if l[0].0 == k then
      var r := [(k, v)] + l[1..];
      assert r[1..] == l[1..];
      r
    else
      var rest := Put(l[1..], k, v);
      var r := [l[0]] + rest;
      assert r[1..] == rest;
      assert Keys(r) == [l[0].0] + Keys(rest);
      r
  }

  /** Setting a key never binds a key twice. */
  lemma PutKeepsDistinct(l: AList, k: string, v: string)
    requires DistinctKeys(l)
    ensures DistinctKeys(Put(l, k, v))
  {
    var ks := Keys(l);
    if k !in ks {
      var ks' := ks + [k];
      forall i, j | 0 <= i < j < |ks'|
        ensures ks'[i] != ks'[j]
      {
        if j == |ks| { assert ks'[i] == ks[i]; }
      }
    }
  }
}

=== FILE: mentions.dfy ===
/**
  Mention extraction for the publishers: the global regular expression
  `(\s|^)@([A-z0-9\/=\.\+]+)` run with `exec` until it fails, each match
  contributing its second group as a mentioned feed.
 */
module Mentions {
  import opened Wrappers
  import opened Text

  /** The class `[A-z0-9\/=\.\+]`. The range `A-z` is taken by code point, so
      it also admits `[`, `\`, `]`, `^`, `_` and the backtick. */
  predicate IsMentionChar(c: char) {
    ('A' <= c <= 'z') || ('0' <= c <= '9') || c == '/' || c == '=' || c == '.' || c == '+'
  }

  /** Where the greedy run of class characters starting at `i` stops. */
  function RunEnd(text: string, i: nat): (e: nat)
    requires i <= |text|
    ensures i <= e <= |text|
    ensures forall j :: i <= j < e ==> IsMentionChar(text[j])
    ensures e == |text| || !IsMentionChar(text[e])
    decreases |text| - i
  {
    if i == |text| || !IsMentionChar(text[i]) then i else RunEnd(text, i + 1)
  }

  /** A mention starts at `p`: an `@` at the start of the text or right after
      whitespace, followed by at least one class character. */
  predicate IsMentionAt(text: string, p: int) {
    && 0 <= p && p + 1 < |text|
    && text[p] == '@' && IsMentionChar(text[p + 1])
    && (p == 0 || IsSpace(text[p - 1]))
  }

  /** The feed named by the mention at `p`: the whole run after the `@`. */
  function FeedAt(text: string, p: nat): (f: string)
    requires IsMentionAt(text, p)
    ensures |f| > 0 && forall j :: 0 <= j < |f| ==> IsMentionChar(f[j])
  {
    text[p + 1 .. RunEnd(text, p + 1)]
  }

  /** The reference reading: every mention at or after `i`, in text order. */
  function MentionsFrom(text: string, i: nat): seq<string>
    requires i <= |text|
    decreases |text| - i
  {
    if i == |text| then []
    else (if IsMentionAt(text, i) then [FeedAt(text, i)] else []) + MentionsFrom(text, i + 1)
  }

  /** The regular expression matches at `s`: either whitespace at `s` then a
      mention, or (`^`, no multiline flag) a mention at the very start. */
  predicate MatchAt(text: string, s: int) {
    (0 <= s < |text| && IsSpace(text[s]) && IsMentionAt(text, s + 1))
    || (s == 0 && IsMentionAt(text, 0))
  }

  /** `exec` from `lastIndex`: the first position at or after it where the
      expression matches. */
  function Search(text: string, from: nat): (r: Option<nat>)
    requires from <= |text|
    ensures r.Some? ==> from <= r.value < |text| && MatchAt(text, r.value)
    ensures forall s :: from <= s < (if r.Some? then r.value else |text| + 1) ==> !MatchAt(text, s)
    decreases |text| - from
  {
    if from == |text| then None
    else if MatchAt(text, from) then Some(from)
    else Search(text, from + 1)
  }

  /** Where the `@` of the match at `s` is: the `\s` alternative is tried
      first. */
  function AtOf(text: string, s: nat): (p: nat)
    requires MatchAt(text, s)
    ensures IsMentionAt(text, p) && s <= p <= s + 1
  {
    if IsSpace(text[s]) then s + 1 else s
  }

  /** One `exec` from `lastIndex`: the matched feed and the new `lastIndex`
      (the end of the run), or `None` when the expression no longer matches. */
  function ExecOnce(text: string, lastIndex: nat): (m: Option<(string, nat)>)
    requires lastIndex <= |text|
    ensures m.Some? ==> lastIndex < m.value.1 <= |text|
  {
    match Search(text, lastIndex)
    case None => None
    case Some(s) =>
      var p := AtOf(text, s);
      Some((FeedAt(text, p), RunEnd(text, p + 1)))
  }

  /** The `while ((match = mentionRegex.exec(text)))` loop from `lastIndex`:
      each match yields its feed and moves `lastIndex` past the run. */
  function Exec(text: string, lastIndex: nat): (feeds: seq<string>)
    requires lastIndex <= |text|
    ensures |feeds| <= |text| - lastIndex
    decreases |text| - lastIndex
  {
    match ExecOnce(text, lastIndex)
    case None => []
    case Some((f, e)) => [f] + Exec(text, e)
  }

  /** No class character is whitespace or an `@`. */
  lemma ClassIsPlain(c: char)
    requires IsMentionChar(c)
    ensures !IsSpace(c) && c != '@'
  {
  }

  /** Skipping a stretch without mentions loses none. */
  lemma {:induction false} SkipQuiet(text: string, a: nat, b: nat)
    requires a <= b <= |text|
    requires forall q :: a <= q < b ==> !IsMentionAt(text, q)
    ensures MentionsFrom(text, a) == MentionsFrom(text, b)
    decreases b - a
  {
    if a < b {
      SkipQuiet(text, a + 1, b);
    }
  }

  /** Before the first match there is no mention, as long as no mention
      starts exactly at `lastIndex` after a whitespace the search has passed. */
  lemma QuietBeforeMatch(text: string, from: nat, s: nat)
    requires from <= s <= |text|
    requires from == 0 || !IsMentionAt(text, from)
    requires forall t :: from <= t < s ==> !MatchAt(text, t)
    ensures forall q :: from <= q < s ==> !IsMentionAt(text, q)
  {
    forall q | from <= q < s
      ensures !IsMentionAt(text, q)
    {
      if IsMentionAt(text, q) {
        if q == 0 {
          assert MatchAt(text, 0);
        } else if q == from {
        } else {
          assert MatchAt(text, q - 1);
        }
      }
    }
  }

  /** One successful `exec`: the match's feed is the next reference mention,
      and the search resumes where no mention can start. */
  lemma MatchStep(text: string, lastIndex: nat, s: nat)
    requires lastIndex <= s < |text|
    requires lastIndex == 0 || !IsMentionAt(text, lastIndex)
    requires MatchAt(text, s)
    requires forall t :: lastIndex <= t < s ==> !MatchAt(text, t)
    ensures var p := AtOf(text, s);
            var e := RunEnd(text, p + 1);
            && MentionsFrom(text, lastIndex) == [FeedAt(text, p)] + MentionsFrom(text, e)
            && !IsMentionAt(text, e)
  {
    var p := AtOf(text, s);
    var e := RunEnd(text, p + 1);
    QuietBeforeMatch(text, lastIndex, s);
    if p == s + 1 {
      assert !IsMentionAt(text, s);
    }
    SkipQuiet(text, lastIndex, p);
    forall q | p + 1 <= q < e
      ensures !IsMentionAt(text, q)
    {
      ClassIsPlain(text[q]);
    }
    SkipQuiet(text, p + 1, e);
    assert MentionsFrom(text, p) == [FeedAt(text, p)] + MentionsFrom(text, p + 1);
    ClassIsPlain(text[e - 1]);
  }

  /** A failed `exec` ends the loop with no mention left to find. */
  lemma NoMatchNoMentions(text: string, lastIndex: nat)
    requires lastIndex <= |text|
    requires lastIndex == 0 || !IsMentionAt(text, lastIndex)
    requires Search(text, lastIndex).None?
    ensures MentionsFrom(text, lastIndex) == []
  {
    QuietBeforeMatch(text, lastIndex, |text|);
    SkipQuiet(text, lastIndex, |text|);
  }

  /** The loop's invariant survives one successful `exec`: what is still to
      be found from `lastIndex` is the match's feed and then what is still to
      be found from the new `lastIndex`, where no mention starts. */
  lemma ExecStep(text: string, lastIndex: nat)
    requires lastIndex <= |text|
    requires lastIndex == 0 || !IsMentionAt(text, lastIndex)
    requires ExecOnce(text, lastIndex).Some?
    ensures var m := ExecOnce(text, lastIndex).value;
            MentionsFrom(text, lastIndex) == [m.0] + MentionsFrom(text, m.1) && !IsMentionAt(text, m.1)
  {
    var s := Search(text, lastIndex).value;
    var p := AtOf(text, s);
    assert ExecOnce(text, lastIndex).value == (FeedAt(text, p), RunEnd(text, p + 1));
    MatchStep(text, lastIndex, s);
  }

  /** After a failed `exec` nothing is left to find. */
  lemma ExecStops(text: string, lastIndex: nat)
    requires lastIndex <= |text|
    requires lastIndex == 0 || !IsMentionAt(text, lastIndex)
    requires ExecOnce(text, lastIndex).None?
    ensures MentionsFrom(text, lastIndex) == []
  {
    assert Search(text, lastIndex).None?;
    NoMatchNoMentions(text, lastIndex);
  }

  /** The exec loop finds exactly the reference mentions. */
  lemma {:induction false} ExecFindsMentions(text: string, lastIndex: nat)
    requires lastIndex <= |text|
    requires lastIndex == 0 || !IsMentionAt(text, lastIndex)
    ensures Exec(text, lastIndex) == MentionsFrom(text, lastIndex)
    decreases |text| - lastIndex
  {
    var m := ExecOnce(text, lastIndex);
    if m.Some? {
      ExecStep(text, lastIndex);
      ExecFindsMentions(text, m.value.1);
    } else {
      ExecStops(text, lastIndex);
    }
  }

  /** `extractMentions` on a text: the feeds of all its mentions, in order. */
  function ExtractedFeeds(text: string): (feeds: seq<string>)
    ensures feeds == MentionsFrom(text, 0)
  {
    ExecFindsMentions(text, 0);
    Exec(text, 0)
  }

  /** A text without an `@` mentions nobody. */
  lemma {:induction false} NoAtNoMentions(text: string, i: nat)
    requires i <= |text|
    requires forall j :: 0 <= j < |text| ==> text[j] != '@'
    ensures MentionsFrom(text, i) == []
    decreases |text| - i
  {
    if i < |text| {
      NoAtNoMentions(text, i + 1);
    }
  }

  /** Every reference mention is a non-empty run of class characters. */
  lemma {:induction false} MentionsArePlain(text: string, i: nat)
    requires i <= |text|
    ensures forall f :: f in MentionsFrom(text, i) ==>
              |f| > 0 && forall j :: 0 <= j < |f| ==> IsMentionChar(f[j])
    decreases |text| - i
  {
    if i < |text| {
      MentionsArePlain(text, i + 1);
    }
  }
}

=== FILE: messages.dfy ===
/**
  Messages as the processor receives them: `{key, value: {author, timestamp,
  content}}`. A content's typed links are given already extracted, in the
  order the link library would visit them.
 */
module Messages {
  import opened Wrappers

  /** Message keys and feed ids are opaque strings. */
  type Key = string
  type FeedId = string

  /** One typed link: `rel`, an optional message target, an optional feed
      target, and the numeric coercion `+link.value` when it is a number
      (`None` for an absent value or NaN). */
  datatype Link = Link(rel: string, msg: Option<Key>, feed: Option<FeedId>, value: Option<int>)

  /** `content.type` (`kind`), the optional `text` and `name` fields, and the links. */
  datatype Content = Content(kind: Option<string>, text: Option<string>, name: Option<string>, links: seq<Link>)

  datatype Message = Message(key: Key, author: FeedId, timestamp: int, content: Content)

  /** A link the post handler treats as a reply: `rel == 'replies-to'` with a message target. */
  predicate IsReplyLink(l: Link) {
    l.rel == "replies-to" && Truthy(l.msg)
  }

  /** A link the post handler treats as a mention of `local`. */
  predicate MentionsFeed(l: Link, local: FeedId) {
    l.rel == "mentions" && l.feed == Some(local)
  }
}

=== FILE: names.dfy ===
/**
  The profile store and name resolver: the `init`, `name` and `trust`
  handlers and `rebuildNamesFor` / `rebuildNamesBy`.

  The source's trust levels 0, 0.5 and 1 are modelled as the integer ranks
  0, 1 and 2, which compare the same way.
 */
module Names {
  import opened Wrappers
  import opened Text
  import opened AssocList
  import opened Messages
  import opened IndexState

  /** Trust 0: the identity's own self-declared name. */
  const RankSelf: int := 0
  /** Trust 0.5: a name given by a trusted identity. */
  const RankTrusted: int := 1
  /** Trust 1: the local feed's own name, or a name the local feed gave. */
  const RankMine: int := 2

  /** A resolved name (possibly null) with the trust rank backing it. */
  datatype Binding = Binding(name: Option<string>, rank: int)

  /** The key a name is stored under in `ids`: JavaScript turns a null key
      into the string "null". */
  function IdsKey(name: Option<string>): string {
    match name
    case None => "null"
    case Some(s) => s
  }

  /** Entry `i` of `assignedBy` has a name and its assigner is trusted. */
  predicate TrustedAt(a: AList, trusted: set<FeedId>, i: int)
    requires 0 <= i < |a|
  {
    a[i].1 != "" && a[i].0 in trusted
  }

  /** The `for (var id in profile.assignedBy)` scan: the position of the first
      trusted assigner with a name, or `|a|` when there is none. */
  function FirstTrustedIndex(a: AList, trusted: set<FeedId>): (i: nat)
    ensures i <= |a|
    ensures forall j :: 0 <= j < i ==> !TrustedAt(a, trusted, j)
    ensures i < |a| ==> TrustedAt(a, trusted, i)
  {
    if |a| == 0 then 0
    else if TrustedAt(a, trusted, 0) then 0
    else
      var i := FirstTrustedIndex(a[1..], trusted);
      assert forall j :: 1 <= j < |a| ==> TrustedAt(a, trusted, j) == TrustedAt(a[1..], trusted, j - 1);
      1 + i
  }

  /** A binding some name source offers for `pid`: its self name (rank 0),
      its self name when it is the local feed (rank 2), the name the local feed
      gave it (rank 2), or a name a trusted identity gave it (rank 1). */
  predicate Offers(p: Profile, pid: FeedId, local: FeedId, trusted: set<FeedId>, b: Binding) {
    || b == Binding(p.selfName, RankSelf)
    || (pid == local && b == Binding(p.selfName, RankMine))
    || (Get(p.assignedBy, local).Some? && Get(p.assignedBy, local).value != ""
        && b == Binding(Get(p.assignedBy, local), RankMine))
    || (exists i ::
          0 <= i < |p.assignedBy| && TrustedAt(p.assignedBy, trusted, i)
          && b == Binding(Some(p.assignedBy[i].1), RankTrusted))
  }

  /** The choice `rebuildNamesFor` makes: the best-ranked offered binding;
      for the local feed its own self name; among trusted assigners the first
      one in iteration order. */
  function Resolve(p: Profile, pid: FeedId, local: FeedId, trusted: set<FeedId>): (b: Binding)
    ensures Offers(p, pid, local, trusted, b)
    ensures forall c :: Offers(p, pid, local, trusted, c) ==> c.rank <= b.rank
    ensures pid == local ==> b == Binding(p.selfName, RankMine)
    ensures b.rank == RankTrusted ==>
              b.name == Some(p.assignedBy[FirstTrustedIndex(p.assignedBy, trusted)].1)
  {
    if pid == local then Binding(p.selfName, RankMine)
    else if Get(p.assignedBy, local).Some? && Get(p.assignedBy, local).value != "" then
      Binding(Get(p.assignedBy, local), RankMine)
    else
      var i := FirstTrustedIndex(p.assignedBy, trusted);
      if i < |p.assignedBy| then Binding(Some(p.assignedBy[i].1), RankTrusted)
      else Binding(p.selfName, RankSelf)
  }

  /** With no names given by others, every identity resolves to its own self
      name. */
  lemma SelfNamesOnly(p: Profile, pid: FeedId, local: FeedId, trusted: set<FeedId>)
    requires p.assignedBy == []
    ensures Resolve(p, pid, local, trusted).name == p.selfName
  {
  }

  /** `ids[name]` is set to a truthy feed id. */
  predicate Owned(ids: map<string, FeedId>, n: string) {
    n in ids && ids[n] != ""
  }

  /** Whether a claimant of rank `rank` takes `ids[n]`: the name is unowned,
      or the claimant's rank is at least the current owner's recorded rank. */
  predicate Claims(st: State, n: string, rank: int) {
    !Owned(st.ids, n)
    || (st.ids[n] in st.nameTrustRanks && rank >= st.nameTrustRanks[st.ids[n]])
  }

  /** The binding `rebuildNamesFor(pid)` computes in state `st`. */
  function BindingOf(st: State, local: FeedId, pid: FeedId): Binding {
    Resolve(ProfileOf(st, pid), pid, local, st.trustedProfiles)
  }

  /** A binding depends only on the identity's self name, the names given to
      it (in order) and the trusted set. */
  lemma BindingFrame(a: State, b: State, local: FeedId)
    requires a.trustedProfiles == b.trustedProfiles
    ensures forall x :: ProfileOf(a, x).selfName == ProfileOf(b, x).selfName
                        && ProfileOf(a, x).assignedBy == ProfileOf(b, x).assignedBy
                        ==> BindingOf(a, local, x) == BindingOf(b, local, x)
  {
  }

  /** `rebuildNamesFor(pid)`: store the resolved name and its rank for `pid`
      and let `pid` take `ids[name]` when its rank is high enough. Stale `ids`
      entries of `pid`'s previous name are kept. */
  function RebuildNamesFor(st: State, local: FeedId, pid: FeedId): (r: State)
    ensures var b := BindingOf(st, local, pid);
            && r.names == st.names[pid := b.name]
            && r.nameTrustRanks == st.nameTrustRanks[pid := b.rank]
            && (Claims(st, IdsKey(b.name), b.rank) ==> r.ids == st.ids[IdsKey(b.name) := pid])
            && (!Claims(st, IdsKey(b.name), b.rank) ==> r.ids == st.ids)
    ensures r.profiles.Keys == st.profiles.Keys + {pid}
    ensures forall x :: ProfileOf(r, x) == ProfileOf(st, x)
    ensures r.trustedProfiles == st.trustedProfiles
    ensures r.(profiles := st.profiles, names := st.names, ids := st.ids, nameTrustRanks := st.nameTrustRanks) == st
  {
    var st1 := GetProfile(st, pid);
    var b := Resolve(st1.profiles[pid], pid, local, st1.trustedProfiles);
    var n := IdsKey(b.name);
    st1.(names := st1.names[pid := b.name],
         ids := if Claims(st1, n, b.rank) then st1.ids[n := pid] else st1.ids,
         nameTrustRanks := st1.nameTrustRanks[pid := b.rank])
  }

  /** The reverse-lookup rule in words: `ids[name]` names `pid` exactly when
      it was unowned, already `pid`, or `pid`'s rank is at least the owner's;
      every other `ids` entry is untouched and none is removed. */
  lemma ReverseLookupRule(st: State, local: FeedId, pid: FeedId)
    ensures var r := RebuildNamesFor(st, local, pid);
            var n := IdsKey(BindingOf(st, local, pid).name);
            && (n in r.ids && r.ids[n] == pid
                <==> Claims(st, n, BindingOf(st, local, pid).rank) || (n in st.ids && st.ids[n] == pid))
            && (forall m :: m != n ==> (m in r.ids <==> m in st.ids))
            && (forall m :: m != n && m in st.ids ==> r.ids[m] == st.ids[m])
            && st.ids.Keys <= r.ids.Keys
  {
  }

  /** Every `ids` owner has a recorded rank, so the comparison in the claim
      rule never meets an undefined rank. */
  predicate OwnersRanked(st: State) {
    forall n :: n in st.ids ==> st.ids[n] in st.nameTrustRanks
  }

  /** No recorded rank is above the local feed's own. */
  predicate RanksAtMostMine(st: State) {
    forall p :: p in st.nameTrustRanks ==> st.nameTrustRanks[p] <= RankMine
  }

  lemma RebuildKeepsOwnersRanked(st: State, local: FeedId, pid: FeedId)
    requires OwnersRanked(st)
    ensures OwnersRanked(RebuildNamesFor(st, local, pid))
  {
  }

  /** A rebuild records one of the three trust levels, so it never puts a
      rank above the local feed's own. */
  lemma RebuildKeepsRanksAtMostMine(st: State, local: FeedId, pid: FeedId)
    requires RanksAtMostMine(st)
    ensures RanksAtMostMine(RebuildNamesFor(st, local, pid))
  {
  }

  /** Rebuild the names of `xs` in order. Afterwards each of them carries the
      binding resolved in the final state, and every other identity keeps its
      name and rank. */
  function RebuildEach(st: State, local: FeedId, xs: seq<FeedId>): (r: State)
    ensures forall x :: x in xs ==>
              x in r.names && r.names[x] == BindingOf(r, local, x).name
              && x in r.nameTrustRanks && r.nameTrustRanks[x] == BindingOf(r, local, x).rank
    ensures forall x :: x !in xs ==>
              (x in r.names <==> x in st.names) && (x in st.names ==> r.names[x] == st.names[x])
              && (x in r.nameTrustRanks <==> x in st.nameTrustRanks)
              && (x in st.nameTrustRanks ==> r.nameTrustRanks[x] == st.nameTrustRanks[x])
    ensures forall x :: ProfileOf(r, x) == ProfileOf(st, x)
    ensures st.profiles.Keys <= r.profiles.Keys
    ensures r.trustedProfiles == st.trustedProfiles
    ensures r.(profiles := st.profiles, names := st.names, ids := st.ids, nameTrustRanks := st.nameTrustRanks) == st
    ensures SameIndexes(r, st)
    ensures OwnersRanked(st) ==> OwnersRanked(r)
    decreases |xs|
  {
    if |xs| == 0 then st
    else RebuildEach(RebuildNamesFor(st, local, xs[0]), local, xs[1..])
  }

  /** `rebuildNamesBy(pid)`: rebuild every identity `pid` has given a name. */
  function RebuildNamesBy(st: State, local: FeedId, pid: FeedId): (r: State)
    ensures var targets := Keys(ProfileOf(st, pid).assignedTo);
            && (forall x :: x in targets ==>
                  x in r.names && r.names[x] == BindingOf(r, local, x).name)
            && (forall x :: x !in targets ==>
                  (x in r.names <==> x in st.names) && (x in st.names ==> r.names[x] == st.names[x]))
    ensures forall x :: ProfileOf(r, x) == ProfileOf(st, x)
    ensures r.trustedProfiles == st.trustedProfiles
    ensures SameIndexes(r, st)
    ensures OwnersRanked(st) ==> OwnersRanked(r)
  {
    var st1 := GetProfile(st, pid);
    RebuildEach(st1, local, Keys(st1.profiles[pid].assignedTo))
  }

  /** The profile fields other than the two name lists agree. */
  predicate SameButAssignments(p: Profile, q: Profile) {
    p.id == q.id && p.selfName == q.selfName && p.trust == q.trust && p.createdAt == q.createdAt
  }

  /** `target.assignedBy[author] = name` on a lazily created profile. */
  function SetAssignedBy(st: State, target: FeedId, author: FeedId, name: string): (r: State)
    ensures forall x, k :: Get(ProfileOf(r, x).assignedBy, k)
              == if x == target && k == author then Some(name) else Get(ProfileOf(st, x).assignedBy, k)
    ensures forall x :: ProfileOf(r, x).assignedTo == ProfileOf(st, x).assignedTo
    ensures forall x :: x != target ==> ProfileOf(r, x).assignedBy == ProfileOf(st, x).assignedBy
    ensures var ks := Keys(ProfileOf(st, target).assignedBy);
            Keys(ProfileOf(r, target).assignedBy) == if author in ks then ks else ks + [author]
    ensures forall x :: SameButAssignments(ProfileOf(r, x), ProfileOf(st, x))
    ensures r.(profiles := st.profiles) == st
  {
    var st1 := GetProfile(st, target);
    var t := st1.profiles[target];
    SetProfile(st1, target, t.(assignedBy := Put(t.assignedBy, author, name)))
  }

  /** `author.assignedTo[target] = name` on a lazily created profile. */
  function SetAssignedTo(st: State, author: FeedId, target: FeedId, name: string): (r: State)
    ensures forall x, k :: Get(ProfileOf(r, x).assignedTo, k)
              == if x == author && k == target then Some(name) else Get(ProfileOf(st, x).assignedTo, k)
    ensures forall x :: ProfileOf(r, x).assignedBy == ProfileOf(st, x).assignedBy
    ensures forall x :: x != author ==> ProfileOf(r, x).assignedTo == ProfileOf(st, x).assignedTo
    ensures var ks := Keys(ProfileOf(st, author).assignedTo);
            Keys(ProfileOf(r, author).assignedTo) == if target in ks then ks else ks + [target]
    ensures forall x :: SameButAssignments(ProfileOf(r, x), ProfileOf(st, x))
    ensures r.(profiles := st.profiles) == st
  {
    var st1 := GetProfile(st, author);
    var a := st1.profiles[author];
    SetProfile(st1, author, a.(assignedTo := Put(a.assignedTo, target, name)))
  }

  /** One `names` link with a target feed: `target.assignedBy[author]` and
      `author.assignedTo[target]` become `name`, and only `target` is rebuilt. */
  function Assign(st: State, local: FeedId, author: FeedId, target: FeedId, name: string): (r: State)
    ensures forall x, k :: Get(ProfileOf(r, x).assignedBy, k)
              == if x == target && k == author then Some(name) else Get(ProfileOf(st, x).assignedBy, k)
    ensures forall x, k :: Get(ProfileOf(r, x).assignedTo, k)
              == if x == author && k == target then Some(name) else Get(ProfileOf(st, x).assignedTo, k)
    ensures forall x :: x != target ==> ProfileOf(r, x).assignedBy == ProfileOf(st, x).assignedBy
    ensures forall x :: x != author ==> ProfileOf(r, x).assignedTo == ProfileOf(st, x).assignedTo
    ensures var ks := Keys(ProfileOf(st, target).assignedBy);
            Keys(ProfileOf(r, target).assignedBy) == if author in ks then ks else ks + [author]
    ensures var ks := Keys(ProfileOf(st, author).assignedTo);
            Keys(ProfileOf(r, author).assignedTo) == if target in ks then ks else ks + [target]
    ensures forall x :: SameButAssignments(ProfileOf(r, x), ProfileOf(st, x))
    ensures r.names == st.names[target := BindingOf(r, local, target).name]
    ensures r.trustedProfiles == st.trustedProfiles
    ensures SameIndexes(r, st)
    ensures OwnersRanked(st) ==> OwnersRanked(r)
  {
    var st1 := SetAssignedBy(st, target, author, name);
    var st2 := SetAssignedTo(st1, author, target, name);
    RebuildNamesFor(st2, local, target)
  }

  /** The rebuild inside one assignment records the target's new rank and
      lets the target claim `ids[name]` by the claim rule, judged against the
      `ids` and ranks from before the message. */
  lemma AssignRebuildsTarget(st: State, local: FeedId, author: FeedId, target: FeedId, name: string)
    ensures var r := Assign(st, local, author, target, name);
            var b := BindingOf(r, local, target);
            && r.nameTrustRanks == st.nameTrustRanks[target := b.rank]
            && r.ids == if Claims(st, IdsKey(b.name), b.rank) then st.ids[IdsKey(b.name) := target] else st.ids
  {
    var st1 := SetAssignedBy(st, target, author, name);
    var st2 := SetAssignedTo(st1, author, target, name);
    var r := RebuildNamesFor(st2, local, target);
    assert Assign(st, local, author, target, name) == r;
    assert st2.ids == st.ids && st2.nameTrustRanks == st.nameTrustRanks;
    assert ProfileOf(r, target) == ProfileOf(st2, target);
  }

  /** The feeds named by the links that have a target feed. */
  function Targets(links: seq<Link>): (ts: seq<FeedId>)
    ensures forall l :: l in links && Truthy(l.feed) ==> l.feed.value in ts
  {
    if |links| == 0 then []
    else (if Truthy(links[0].feed) then [links[0].feed.value] else []) + Targets(links[1..])
  }

  /** The `links.forEach` of the `name` handler: links without a target feed
      are skipped. */
  function AssignAll(st: State, local: FeedId, author: FeedId, name: string, links: seq<Link>): (r: State)
    ensures forall x, k :: Get(ProfileOf(r, x).assignedBy, k)
              == if x in Targets(links) && k == author then Some(name) else Get(ProfileOf(st, x).assignedBy, k)
    ensures forall x, k {:trigger Get(ProfileOf(r, x).assignedTo, k)} :: Get(ProfileOf(r, x).assignedTo, k)
              == if x == author && k in Targets(links) then Some(name) else Get(ProfileOf(st, x).assignedTo, k)
    ensures forall x :: SameButAssignments(ProfileOf(r, x), ProfileOf(st, x))
    ensures forall x :: x !in Targets(links) ==> ProfileOf(r, x).assignedBy == ProfileOf(st, x).assignedBy
    ensures forall x :: x in Targets(links) ==> x in r.names && r.names[x] == BindingOf(r, local, x).name
    ensures forall x :: x !in Targets(links) ==>
              (x in r.names <==> x in st.names) && (x in st.names ==> r.names[x] == st.names[x])
    ensures Targets(links) == [] ==> r == st
    ensures r.trustedProfiles == st.trustedProfiles
    ensures SameIndexes(r, st)
    ensures OwnersRanked(st) ==> OwnersRanked(r)
    decreases |links|
  {
    if |links| == 0 then st
    else
      var st1 := if Truthy(links[0].feed) then Assign(st, local, author, links[0].feed.value, name) else st;
      var r := AssignAll(st1, local, author, name, links[1..]);
      BindingFrame(r, st1, local);
      r
  }

  /** `ssbmsgs.getLinks(content, 'names')`. */
  function NamesLinks(links: seq<Link>): (r: seq<Link>)
    ensures forall l :: l in r <==> l in links && l.rel == "names"
  {
    if |links| == 0 then []
    else (if links[0].rel == "names" then [links[0]] else []) + NamesLinks(links[1..])
  }

  /** The filter keeps the order of the links: it distributes over
      concatenation. */
  lemma {:induction false} NamesLinksAppend(a: seq<Link>, b: seq<Link>)
    ensures NamesLinks(a + b) == NamesLinks(a) + NamesLinks(b)
    decreases |a|
  {
    if |a| == 0 {
      assert a + b == b;
    } else {
      assert (a + b)[0] == a[0];
      assert (a + b)[1..] == a[1..] + b;
      NamesLinksAppend(a[1..], b);
    }
  }

  /** The `name` handler. A blank or missing name changes nothing. Otherwise
      the name, with whitespace turned into underscores, is either given to
      every `names` link's target feed or, when there is no `names` link,
      taken as the author's self name. */
  function NameHandler(st: State, local: FeedId, msg: Message): (r: State)
    ensures Empty(msg.content.name) ==> r == st
    ensures !Empty(msg.content.name) && NamesLinks(msg.content.links) == [] ==>
              var name := NoSpaces(msg.content.name.value);
              && ProfileOf(r, msg.author) == ProfileOf(st, msg.author).(selfName := Some(name))
              && (forall x :: x != msg.author ==> ProfileOf(r, x) == ProfileOf(st, x))
              && r.names == st.names[msg.author := BindingOf(r, local, msg.author).name]
              && (var b := BindingOf(r, local, msg.author);
                  && r.nameTrustRanks == st.nameTrustRanks[msg.author := b.rank]
                  && r.ids == if Claims(st, IdsKey(b.name), b.rank) then st.ids[IdsKey(b.name) := msg.author] else st.ids)
    ensures !Empty(msg.content.name) && NamesLinks(msg.content.links) != [] ==>
              var name := NoSpaces(msg.content.name.value);
              && (forall l :: l in msg.content.links && l.rel == "names" && Truthy(l.feed) ==>
                    Get(ProfileOf(r, l.feed.value).assignedBy, msg.author) == Some(name)
                    && Get(ProfileOf(r, msg.author).assignedTo, l.feed.value) == Some(name))
              && (forall l :: l in msg.content.links && l.rel == "names" && Truthy(l.feed) ==>
                    l.feed.value in r.names && r.names[l.feed.value] == BindingOf(r, local, l.feed.value).name)
              && (forall x :: SameButAssignments(ProfileOf(r, x), ProfileOf(st, x)))
              && (forall x :: x !in Targets(NamesLinks(msg.content.links)) ==>
                    (x in r.names <==> x in st.names) && (x in st.names ==> r.names[x] == st.names[x]))
    ensures r.trustedProfiles == st.trustedProfiles
    ensures SameIndexes(r, st)
    ensures OwnersRanked(st) ==> OwnersRanked(r)
  {
    var c := msg.content;
    if Empty(c.name) then st
    else
      var name := NoSpaces(c.name.value);
      var links := NamesLinks(c.links);
      if |links| > 0 then AssignAll(st, local, msg.author, name, links)
      else
        var st1 := GetProfile(st, msg.author);
        var st2 := SetProfile(st1, msg.author, st1.profiles[msg.author].(selfName := Some(name)));
        RebuildNamesFor(st2, local, msg.author)
  }

  /** The trust level `+link.value || 0`. */
  function TrustValue(l: Link): (v: int)
    ensures l.value.Some? ==> v == l.value.value
    ensures l.value.None? ==> v == 0
  {
    match l.value
    case None => 0
    case Some(v) => v
  }

  /** A link that `indexLinks(content, {tofeed: true, rel: 'trusts'})` visits. */
  predicate TrustsLink(l: Link) {
    l.rel == "trusts" && Truthy(l.feed)
  }

  /** The trust value of the last `trusts` link to `x`, which is the one
      that sticks, or None when no link targets `x`. */
  function LastTrust(links: seq<Link>, x: FeedId): Option<int>
    decreases |links|
  {
    if |links| == 0 then None
    else
      var later := LastTrust(links[1..], x);
      if later.Some? then later
      else if TrustsLink(links[0]) && links[0].feed.value == x then Some(TrustValue(links[0]))
      else None
  }

  /** No value is recorded for `x` exactly when no `trusts` link targets it. */
  lemma {:induction false} LastTrustNone(links: seq<Link>, x: FeedId)
    ensures LastTrust(links, x).None? <==> forall l :: l in links && TrustsLink(l) ==> l.feed.value != x
    decreases |links|
  {
    if |links| > 0 {
      LastTrustNone(links[1..], x);
      assert forall l :: l in links <==> l == links[0] || l in links[1..];
    }
  }

  /** A target is in `trustedProfiles` exactly when its trust is 1. */
  ghost predicate TrustedConsistent(st: State) {
    forall x :: x in st.trustedProfiles <==> ProfileOf(st, x).trust == 1
  }

  /** One `trusts` link from the local feed: record the trust value, keep the
      trusted set in step with it, and rebuild the names of every identity
      the target has named. */
  function TrustOne(st: State, local: FeedId, f: FeedId, v: int): (r: State)
    ensures ProfileOf(r, f) == ProfileOf(st, f).(trust := v)
    ensures forall x :: x != f ==> ProfileOf(r, x) == ProfileOf(st, x)
    ensures f in r.trustedProfiles <==> v == 1
    ensures forall x :: x != f ==> (x in r.trustedProfiles <==> x in st.trustedProfiles)
    ensures var targets := Keys(ProfileOf(st, f).assignedTo);
            && (forall x :: x in targets ==> x in r.names && r.names[x] == BindingOf(r, local, x).name)
            && (forall x :: x !in targets ==>
                  (x in r.names <==> x in st.names) && (x in st.names ==> r.names[x] == st.names[x]))
    ensures TrustedConsistent(st) ==> TrustedConsistent(r)
    ensures SameIndexes(r, st)
    ensures OwnersRanked(st) ==> OwnersRanked(r)
  {
    var st1 := GetProfile(st, f);
    var st2 := SetProfile(st1, f, st1.profiles[f].(trust := v));
    var st3 := st2.(trustedProfiles := if v == 1 then st2.trustedProfiles + {f} else st2.trustedProfiles - {f});
    assert forall x :: ProfileOf(st3, x) == ProfileOf(st2, x);
    RebuildNamesBy(st3, local, f)
  }

  /** `ssbmsgs.indexLinks(content, {tofeed: true, rel: 'trusts'}, ...)`. */
  function TrustAll(st: State, local: FeedId, links: seq<Link>): (r: State)
    ensures forall x :: (forall l :: l in links && l.rel == "trusts" && Truthy(l.feed) ==> l.feed.value != x) ==>
              ProfileOf(r, x).trust == ProfileOf(st, x).trust
              && (x in r.trustedProfiles <==> x in st.trustedProfiles)
    ensures TrustedConsistent(st) ==> TrustedConsistent(r)
    ensures SameIndexes(r, st)
    ensures OwnersRanked(st) ==> OwnersRanked(r)
    decreases |links|
  {
    if |links| == 0 then st
    else
      var l := links[0];
      var st1 := if TrustsLink(l) then TrustOne(st, local, l.feed.value, TrustValue(l)) else st;
      TrustAll(st1, local, links[1..])
  }

  /** Every feed a `trusts` link targets ends with the value of the last such
      link, and is trusted exactly when that value is 1. */
  lemma {:induction false} TrustAllLast(st: State, local: FeedId, links: seq<Link>, x: FeedId)
    requires LastTrust(links, x).Some?
    ensures var r := TrustAll(st, local, links);
            && ProfileOf(r, x).trust == LastTrust(links, x).value
            && (x in r.trustedProfiles <==> LastTrust(links, x).value == 1)
    decreases |links|
  {
    var l := links[0];
    var st1 := if TrustsLink(l) then TrustOne(st, local, l.feed.value, TrustValue(l)) else st;
    assert TrustAll(st, local, links) == TrustAll(st1, local, links[1..]);
    if LastTrust(links[1..], x).Some? {
      TrustAllLast(st1, local, links[1..], x);
    } else {
      LastTrustNone(links[1..], x);
      assert TrustsLink(l) && l.feed.value == x;
    }
  }

  /** The `trust` handler: only the local feed's own trust edges are honoured. */
  function TrustHandler(st: State, local: FeedId, msg: Message): (r: State)
    ensures msg.author != local ==> r == st
    ensures TrustedConsistent(st) ==> TrustedConsistent(r)
    ensures forall x :: (forall l :: l in msg.content.links && l.rel == "trusts" && Truthy(l.feed) ==> l.feed.value != x) ==>
              ProfileOf(r, x).trust == ProfileOf(st, x).trust
              && (x in r.trustedProfiles <==> x in st.trustedProfiles)
    ensures SameIndexes(r, st)
    ensures OwnersRanked(st) ==> OwnersRanked(r)
  {
    if msg.author != local then st
    else TrustAll(st, local, msg.content.links)
  }

  /** A local `trust` message with one `trusts` link is exactly one trust
      step for that link's feed. */
  lemma TrustHandlerSingle(st: State, local: FeedId, msg: Message, l: Link)
    requires msg.author == local && msg.content.links == [l] && TrustsLink(l)
    ensures TrustHandler(st, local, msg) == TrustOne(st, local, l.feed.value, TrustValue(l))
  {
    var links := msg.content.links;
    assert links[1..] == [];
    assert TrustHandler(st, local, msg) == TrustAll(TrustOne(st, local, l.feed.value, TrustValue(l)), local, []);
  }

  /** The `init` handler: the author's profile records the message time as its
      creation time (each `init` message overwrites it); nothing else changes. */
  function InitHandler(st: State, msg: Message): (r: State)
    ensures ProfileOf(r, msg.author) == ProfileOf(st, msg.author).(createdAt := Some(msg.timestamp))
    ensures forall x :: x != msg.author ==> ProfileOf(r, x) == ProfileOf(st, x)
    ensures r.(profiles := st.profiles) == st
  {
    var st1 := GetProfile(st, msg.author);
    SetProfile(st1, msg.author, st1.profiles[msg.author].(createdAt := Some(msg.timestamp)))
  }

  /** A name the local feed gives another feed wins: it becomes that feed's
      name at the highest rank. */
  lemma LocalAssignmentWins(st: State, local: FeedId, target: FeedId, name: string)
    requires target != local && name != ""
    ensures var r := Assign(st, local, local, target, name);
            && target in r.names && r.names[target] == Some(name)
            && target in r.nameTrustRanks && r.nameTrustRanks[target] == RankMine
  {
    var st1 := SetAssignedBy(st, target, local, name);
    var st2 := SetAssignedTo(st1, local, target, name);
    assert Get(ProfileOf(st2, target).assignedBy, local) == Some(name);
    assert BindingOf(st2, local, target) == Binding(Some(name), RankMine);
  }

  /** A `name` message with a single `names` link to a feed assigns the name
      to that feed and nothing more. */
  lemma SingleNamesLink(st: State, local: FeedId, msg: Message, target: FeedId)
    requires !Empty(msg.content.name) && target != ""
    requires msg.content.links == [Link("names", None, Some(target), None)]
    ensures NameHandler(st, local, msg) == Assign(st, local, msg.author, target, NoSpaces(msg.content.name.value))
  {
    var links := msg.content.links;
    assert NamesLinks(links) == links;
    var n := NoSpaces(msg.content.name.value);
    var st1 := Assign(st, local, msg.author, target, n);
    assert AssignAll(st, local, msg.author, n, links) == AssignAll(st1, local, msg.author, n, []);
  }
}

=== FILE: posts.dfy ===
/**
  The `post` and `advert` handlers: reply threading, inbox classification,
  the global post index and the per-author indexes, and the advert index.
 */
module Posts {
  import opened Wrappers
  import opened Text
  import opened SortedIndex
  import opened Messages
  import opened IndexState
  import opened Threads

  /** A handler's result: the new state and the messages announced as `post`
      events, in order. */
  datatype Outcome = Outcome(st: State, emitted: seq<Message>)

  /** The flags the `indexLinks` callback keeps while it scans one message. */
  datatype Scan = Scan(st: State, isReply: bool, isInboxed: bool)

  /** Whether the message has a `replies-to` link with a target. */
  predicate HasReplyLink(links: seq<Link>) {
    exists l :: l in links && IsReplyLink(l)
  }

  /** The message belongs in the local feed's inbox: it replies to one of the
      local feed's posts or mentions the local feed. */
  predicate Relevant(st: State, local: FeedId, links: seq<Link>) {
    exists l :: l in links
      && ((IsReplyLink(l) && Contains(MyPosts(st, local), l.msg.value)) || MentionsFeed(l, local))
  }

  /** The fields the link scan never touches agree. */
  predicate ScanFrame(a: State, b: State) {
    a.postsByAuthor == b.postsByAuthor && a.adverts == b.adverts && a.profiles == b.profiles
    && a.names == b.names && a.ids == b.ids && a.nameTrustRanks == b.nameTrustRanks
    && a.trustedProfiles == b.trustedProfiles
  }

  /** The `indexLinks` callback on one link. */
  function ScanLink(sc: Scan, local: FeedId, msg: Message, l: Link): (r: Scan)
    ensures ScanFrame(r.st, sc.st)
    ensures IsReplyLink(l) ==> r.st.threads == ThreadReply(sc.st, msg.key, msg.timestamp, l.msg.value).threads
    ensures !IsReplyLink(l) ==> r.st.threads == sc.st.threads
    ensures r.st.inbox == sc.st.inbox || r.st.inbox == SortedInsert(sc.st.inbox, msg.timestamp, msg.key)
    ensures r.st.posts == sc.st.posts
            || (IsReplyLink(l) && r.st.posts == SortedInsert(sc.st.posts, msg.timestamp, l.msg.value))
  {
    if IsReplyLink(l) then
      var st1 := ThreadReply(sc.st, msg.key, msg.timestamp, l.msg.value);
      if !sc.isInboxed && Contains(MyPosts(st1, local), l.msg.value) then
        Scan(st1.(inbox := SortedInsert(st1.inbox, msg.timestamp, msg.key)), true, true)
      else Scan(st1, true, sc.isInboxed)
    else if MentionsFeed(l, local) && !sc.isInboxed then
      Scan(sc.st.(inbox := SortedInsert(sc.st.inbox, msg.timestamp, msg.key)), sc.isReply, true)
    else sc
  }

  /** The scan over all of a message's links, in order. The inbox gains the
      message at most once, exactly when it is relevant and was not inboxed
      already; the message counts as a reply exactly when some link is a
      `replies-to` link; without one, posts and threads stay as they were. */
  function ScanLinks(sc: Scan, local: FeedId, msg: Message, links: seq<Link>): (r: Scan)
    ensures ScanFrame(r.st, sc.st)
    ensures r.isReply <==> sc.isReply || HasReplyLink(links)
    ensures sc.isInboxed ==> r.isInboxed && r.st.inbox == sc.st.inbox
    ensures !sc.isInboxed && Relevant(sc.st, local, links) ==>
              r.isInboxed && r.st.inbox == SortedInsert(sc.st.inbox, msg.timestamp, msg.key)
    ensures !sc.isInboxed && !Relevant(sc.st, local, links) ==>
              !r.isInboxed && r.st.inbox == sc.st.inbox
    ensures !HasReplyLink(links) ==> r.st.posts == sc.st.posts && r.st.threads == sc.st.threads
    decreases |links|
  {
    if |links| == 0 then sc
    else
      var sc1 := ScanLink(sc, local, msg, links[0]);
      assert MyPosts(sc1.st, local) == MyPosts(sc.st, local);
      LinksCons(sc.st, local, links);
      ScanLinks(sc1, local, msg, links[1..])
  }

  /** A message whose first link replies to a target and whose other links
      do not reply gets a thread node pointing at that target. */
  lemma LeadingReplyThreaded(st: State, local: FeedId, msg: Message, l: Link, rest: seq<Link>)
    requires !Empty(msg.content.text) && msg.content.links == [l] + rest
    requires IsReplyLink(l) && !HasReplyLink(rest)
    ensures var t := PostHandler(st, local, msg).st.threads;
            msg.key in t && t[msg.key].parent == l.msg && l.msg.value in t
  {
    var sc0 := Scan(st, false, false);
    var sc1 := ScanLink(sc0, local, msg, l);
    var links := msg.content.links;
    assert links[0] == l && links[1..] == rest;
    var sc := ScanLinks(sc1, local, msg, rest);
    assert ScanLinks(sc0, local, msg, links) == sc;
    var t3 := Attach(st.threads, msg.key, msg.timestamp, l.msg.value);
    assert sc1.st.threads == Walk(t3, l.msg.value, {});
    assert sc.st.threads == sc1.st.threads;
    var o := IndexNonReply(sc.st, msg, sc.isReply);
    assert PostHandler(st, local, msg).st.threads == o.st.threads == sc.st.threads;
  }

  /** Relevance and the reply flag of a non-empty link list split into its
      first link and the rest. */
  lemma LinksCons(st: State, local: FeedId, links: seq<Link>)
    requires |links| > 0
    ensures Relevant(st, local, links) <==> Relevant(st, local, [links[0]]) || Relevant(st, local, links[1..])
    ensures HasReplyLink(links) <==> IsReplyLink(links[0]) || HasReplyLink(links[1..])
  {
    assert links == [links[0]] + links[1..];
  }

  /** What the parent walks need to end on this message: the thread forest
      is closed and has no cycle, and none of the message's `replies-to`
      links closes a circle (the message is neither its target nor on the
      target's parent chain). */
  ghost predicate PostPre(st: State, msg: Message) {
    && Acyclic(st.threads) && Closed(st.threads)
    && ReplyTargetsOk(st.threads, msg.key, msg.content.links)
  }

  /** Every `replies-to` link in `links` from `key` closes no circle. */
  ghost predicate ReplyTargetsOk(t: map<Key, Thread>, key: Key, links: seq<Link>) {
    forall l :: l in links && IsReplyLink(l) ==> CanReply(t, key, l.msg.value)
  }

  /** Promotion of a non-reply into the global post index, announced once. */
  function IndexNonReply(st: State, msg: Message, isReply: bool): (r: Outcome)
    ensures !isReply && !Contains(st.posts, msg.key) ==>
              r.st.posts == SortedInsert(st.posts, msg.timestamp, msg.key) && r.emitted == [msg]
    ensures isReply || Contains(st.posts, msg.key) ==> r.st.posts == st.posts && r.emitted == []
    ensures r.st.(posts := st.posts) == st
  {
    if !isReply && !Contains(st.posts, msg.key)
    then Outcome(st.(posts := SortedInsert(st.posts, msg.timestamp, msg.key)), [msg])
    else Outcome(st, [])
  }

  /** Every post with text joins its author's index. */
  function AddToAuthor(st: State, msg: Message): (r: State)
    ensures r.postsByAuthor == st.postsByAuthor[msg.author := SortedInsert(PostsBy(st, msg.author), msg.timestamp, msg.key)]
    ensures r.(postsByAuthor := st.postsByAuthor) == st
  {
    st.(postsByAuthor := st.postsByAuthor[msg.author := SortedInsert(PostsBy(st, msg.author), msg.timestamp, msg.key)])
  }

  /** The `post` handler. */
  function PostHandler(st: State, local: FeedId, msg: Message): (r: Outcome)
    ensures Empty(msg.content.text) ==> r == Outcome(st, [])
    ensures !Empty(msg.content.text) ==>
              r.st.inbox == (if Relevant(st, local, msg.content.links)
                             then SortedInsert(st.inbox, msg.timestamp, msg.key) else st.inbox)
    ensures !Empty(msg.content.text) ==>
              r.st.postsByAuthor
              == st.postsByAuthor[msg.author := SortedInsert(PostsBy(st, msg.author), msg.timestamp, msg.key)]
    ensures !Empty(msg.content.text) && !HasReplyLink(msg.content.links) && !Contains(st.posts, msg.key) ==>
              r.st.posts == SortedInsert(st.posts, msg.timestamp, msg.key) && r.emitted == [msg]
    ensures !Empty(msg.content.text) && !HasReplyLink(msg.content.links) && Contains(st.posts, msg.key) ==>
              r.st.posts == st.posts && r.emitted == []
    ensures !HasReplyLink(msg.content.links) ==> r.st.threads == st.threads
    ensures HasReplyLink(msg.content.links) ==> r.emitted == []
    ensures ScanFrame(r.st.(postsByAuthor := st.postsByAuthor), st)
  {
    if Empty(msg.content.text) then Outcome(st, [])
    else
      var sc := ScanLinks(Scan(st, false, false), local, msg, msg.content.links);
      var o := IndexNonReply(sc.st, msg, sc.isReply);
      Outcome(AddToAuthor(o.st, msg), o.emitted)
  }

  /** The `advert` handler: a message with text joins the advert index. */
  function AdvertHandler(st: State, msg: Message): (r: State)
    ensures Empty(msg.content.text) ==> r == st
    ensures !Empty(msg.content.text) ==>
              |r.adverts| == |st.adverts| + 1 && r.adverts == SortedInsert(st.adverts, msg.timestamp, msg.key)
    ensures r.(adverts := st.adverts) == st
  {
    if Empty(msg.content.text) then st
    else st.(adverts := SortedInsert(st.adverts, msg.timestamp, msg.key))
  }

  /** One link keeps the forest closed and acyclic, keeps every later reply
      link closing no circle, and leaves an unreplied message unreplied. */
  lemma ScanLinkKeepsForest(sc: Scan, local: FeedId, msg: Message, l: Link, rest: seq<Link>)
    requires Acyclic(sc.st.threads) && Closed(sc.st.threads)
    requires ReplyTargetsOk(sc.st.threads, msg.key, [l] + rest)
    ensures var r := ScanLink(sc, local, msg, l).st;
            && Acyclic(r.threads) && Closed(r.threads)
            && ReplyTargetsOk(r.threads, msg.key, rest)
            && (NoReplyTo(sc.st.threads, msg.key) ==> NoReplyTo(r.threads, msg.key))
  {
    assert forall l' :: l' in rest ==> l' in [l] + rest;
    if IsReplyLink(l) {
      assert l in [l] + rest;
      ReplyKeepsForest(sc.st, msg.key, msg.timestamp, l.msg.value, rest);
    }
  }

  /** The forest part of one `replies-to` link. */
  lemma ReplyKeepsForest(st: State, key: Key, ts: int, target: Key, rest: seq<Link>)
    requires Acyclic(st.threads) && Closed(st.threads) && CanReply(st.threads, key, target)
    requires ReplyTargetsOk(st.threads, key, rest)
    ensures var t := ThreadReply(st, key, ts, target).threads;
            && Acyclic(t) && Closed(t) && ReplyTargetsOk(t, key, rest)
            && (NoReplyTo(st.threads, key) ==> NoReplyTo(t, key))
  {
    ThreadReplyShape(st, key, ts, target);
    forall l | l in rest && IsReplyLink(l)
      ensures CanReply(ThreadReply(st, key, ts, target).threads, key, l.msg.value)
    {
      ThreadReplyKeepsCanReply(st, key, ts, target, l.msg.value);
    }
  }

  /** The whole scan keeps the forest closed and acyclic, so every parent
      walk it performs ends at a root; an unreplied message stays unreplied. */
  lemma {:induction false} ScanKeepsForest(sc: Scan, local: FeedId, msg: Message, links: seq<Link>)
    requires Acyclic(sc.st.threads) && Closed(sc.st.threads)
    requires ReplyTargetsOk(sc.st.threads, msg.key, links)
    ensures var r := ScanLinks(sc, local, msg, links).st;
            && Acyclic(r.threads) && Closed(r.threads)
            && (NoReplyTo(sc.st.threads, msg.key) ==> NoReplyTo(r.threads, msg.key))
    decreases |links|
  {
    if |links| > 0 {
      assert links == [links[0]] + links[1..];
      ScanLinkKeepsForest(sc, local, msg, links[0], links[1..]);
      ScanKeepsForest(ScanLink(sc, local, msg, links[0]), local, msg, links[1..]);
    }
  }

  /** The indexes a scan may touch are newest first, the post index holds
      each key once, and every thread's replies are newest first. */
  ghost predicate ScanSound(st: State) {
    Sorted(st.posts) && Sorted(st.inbox) && UniqueKeys(st.posts) && RepliesSorted(st.threads)
  }

  /** One link keeps the scanned indexes sorted and the post index free of
      duplicates. */
  lemma ScanLinkKeepsSound(sc: Scan, local: FeedId, msg: Message, l: Link)
    requires ScanSound(sc.st)
    ensures ScanSound(ScanLink(sc, local, msg, l).st)
  {
    if IsReplyLink(l) {
      var target := l.msg.value;
      ThreadReplyKeepsSorted(sc.st, msg.key, msg.timestamp, target);
      if target !in sc.st.threads && !Contains(sc.st.posts, target) {
        InsertKeepsUnique(sc.st.posts, msg.timestamp, target);
      }
    }
  }

  lemma {:induction false} ScanKeepsSound(sc: Scan, local: FeedId, msg: Message, links: seq<Link>)
    requires ScanSound(sc.st)
    ensures ScanSound(ScanLinks(sc, local, msg, links).st)
    decreases |links|
  {
    if |links| > 0 {
      ScanLinkKeepsSound(sc, local, msg, links[0]);
      ScanKeepsSound(ScanLink(sc, local, msg, links[0]), local, msg, links[1..]);
    }
  }

  /** The `post` handler keeps the thread forest closed and acyclic when
      none of the message's replies closes a circle. */
  lemma PostKeepsForest(st: State, local: FeedId, msg: Message)
    requires PostPre(st, msg)
    ensures Acyclic(PostHandler(st, local, msg).st.threads) && Closed(PostHandler(st, local, msg).st.threads)
  {
    if !Empty(msg.content.text) {
      ScanKeepsForest(Scan(st, false, false), local, msg, msg.content.links);
    }
  }

  /** The `post` handler keeps every index newest first, each key at most
      once in the post index, and every thread's replies newest first. */
  lemma PostKeepsSound(st: State, local: FeedId, msg: Message)
    requires IndexesSorted(st) && UniqueKeys(st.posts) && RepliesSorted(st.threads)
    ensures var r := PostHandler(st, local, msg).st;
            IndexesSorted(r) && UniqueKeys(r.posts) && RepliesSorted(r.threads)
  {
    if !Empty(msg.content.text) {
      var sc := ScanLinks(Scan(st, false, false), local, msg, msg.content.links);
      ScanKeepsSound(Scan(st, false, false), local, msg, msg.content.links);
      if !sc.isReply && !Contains(sc.st.posts, msg.key) {
        InsertKeepsUnique(sc.st.posts, msg.timestamp, msg.key);
      }
    }
  }

  /** One link loses no entry of the post index or the inbox. */
  lemma ScanLinkKeepsEntries(sc: Scan, local: FeedId, msg: Message, l: Link)
    ensures var r := ScanLink(sc, local, msg, l).st;
            multiset(sc.st.posts) <= multiset(r.posts) && multiset(sc.st.inbox) <= multiset(r.inbox)
  {
    InsertAddsOne(sc.st.inbox, msg.timestamp, msg.key);
    if IsReplyLink(l) {
      InsertAddsOne(sc.st.posts, msg.timestamp, l.msg.value);
    }
  }

  /** The scan loses no entry of the post index or the inbox. */
  lemma {:induction false} ScanKeepsEntries(sc: Scan, local: FeedId, msg: Message, links: seq<Link>)
    ensures var r := ScanLinks(sc, local, msg, links).st;
            multiset(sc.st.posts) <= multiset(r.posts) && multiset(sc.st.inbox) <= multiset(r.inbox)
    decreases |links|
  {
    if |links| > 0 {
      ScanLinkKeepsEntries(sc, local, msg, links[0]);
      ScanKeepsEntries(ScanLink(sc, local, msg, links[0]), local, msg, links[1..]);
    }
  }
}

=== FILE: processor.dfy ===
/**
  The processor's entry point: each message of the log is handed to the
  handler registered for its content type, in log order.
 */
module Processor {
  import opened Wrappers
  import opened Text
  import opened SortedIndex
  import opened Messages
  import opened IndexState
  import opened Names
  import opened Threads
  import opened Posts

  /** The content types with a handler. */
  predicate Handled(kind: Option<string>) {
    kind == Some("init") || kind == Some("name") || kind == Some("trust")
    || kind == Some("post") || kind == Some("advert")
  }

  /** `processors[value.content.type]`: run the matching handler, if any. Only
      the `post` handler announces anything, and then only the message itself;
      the four sorted indexes and the thread forest move only for `post` and
      `advert` messages, and profiles and names only for the other three. */
  function Dispatch(st: State, local: FeedId, msg: Message): (r: Outcome)
    ensures msg.content.kind == Some("init") ==> r == Outcome(InitHandler(st, msg), [])
    ensures msg.content.kind == Some("name") ==> r == Outcome(NameHandler(st, local, msg), [])
    ensures msg.content.kind == Some("trust") ==> r == Outcome(TrustHandler(st, local, msg), [])
    ensures msg.content.kind == Some("post") ==> r == PostHandler(st, local, msg)
    ensures msg.content.kind == Some("advert") ==> r == Outcome(AdvertHandler(st, msg), [])
    ensures !Handled(msg.content.kind) ==> r == Outcome(st, [])
    ensures r.emitted == [] || (r.emitted == [msg] && msg.content.kind == Some("post"))
    ensures msg.content.kind != Some("post") && msg.content.kind != Some("advert") ==> SameIndexes(r.st, st)
    ensures msg.content.kind == Some("post") || msg.content.kind == Some("advert") ==>
              && r.st.profiles == st.profiles && r.st.names == st.names && r.st.ids == st.ids
              && r.st.nameTrustRanks == st.nameTrustRanks && r.st.trustedProfiles == st.trustedProfiles
  {
    var kind := msg.content.kind;
    if kind == Some("init") then Outcome(InitHandler(st, msg), [])
    else if kind == Some("name") then Outcome(NameHandler(st, local, msg), [])
    else if kind == Some("trust") then Outcome(TrustHandler(st, local, msg), [])
    else if kind == Some("post") then PostHandler(st, local, msg)
    else if kind == Some("advert") then Outcome(AdvertHandler(st, msg), [])
    else Outcome(st, [])
  }

  /** What holds of every state the processor reaches from the initial one:
      every index is newest first, the post index holds each key once, the
      local feed's own index exists (it is `myposts`), the thread forest is
      closed and has no cycle, every owner of an `ids` entry has a rank, and the trusted set
      is exactly the profiles with trust 1. */
  ghost predicate Inv(st: State, local: FeedId) {
    && local in st.postsByAuthor
    && IndexesSorted(st) && UniqueKeys(st.posts) && RepliesSorted(st.threads)
    && Acyclic(st.threads) && Closed(st.threads)
    && OwnersRanked(st)
    && TrustedConsistent(st)
  }

  lemma InitialInv(local: FeedId)
    ensures Inv(InitialState(local), local)
  {
    var st := InitialState(local);
    assert forall x :: ProfileOf(st, x) == NewProfile(x);
  }

  /** The profile fields that feed the trusted set never move in a `name` or
      `init` message. */
  lemma NameKeepsTrusted(st: State, local: FeedId, msg: Message)
    requires TrustedConsistent(st)
    ensures TrustedConsistent(NameHandler(st, local, msg))
    ensures TrustedConsistent(InitHandler(st, msg))
  {
    var r := NameHandler(st, local, msg);
    forall x
      ensures ProfileOf(r, x).trust == ProfileOf(st, x).trust
    {
      if !Empty(msg.content.name) && NamesLinks(msg.content.links) == [] && x == msg.author {
      } else if !Empty(msg.content.name) && NamesLinks(msg.content.links) != [] {
        assert SameButAssignments(ProfileOf(r, x), ProfileOf(st, x));
      }
    }
    var i := InitHandler(st, msg);
    assert forall x :: ProfileOf(i, x).trust == ProfileOf(st, x).trust;
  }

  /** Every handler keeps the invariant, provided no `replies-to` link of the
      message closes a circle (the message is neither the link's target nor
      on the target's parent chain): exactly then every parent walk ends. */
  lemma DispatchKeepsInv(st: State, local: FeedId, msg: Message)
    requires Inv(st, local)
    requires ReplyTargetsOk(st.threads, msg.key, msg.content.links)
    ensures Inv(Dispatch(st, local, msg).st, local)
  {
    var kind := msg.content.kind;
    if kind == Some("init") || kind == Some("name") {
      NameKeepsTrusted(st, local, msg);
    } else if kind == Some("post") {
      PostKeepsForest(st, local, msg);
      PostKeepsSound(st, local, msg);
    } else if kind == Some("advert") {
      var r := AdvertHandler(st, msg);
      assert forall x :: ProfileOf(r, x) == ProfileOf(st, x);
    }
  }

  /** No handler removes an entry from any index, so the post, inbox and
      advert counts never go down and every author's index only grows. */
  lemma DispatchKeepsEntries(st: State, local: FeedId, msg: Message)
    ensures var r := Dispatch(st, local, msg).st;
            && multiset(st.posts) <= multiset(r.posts)
            && multiset(st.inbox) <= multiset(r.inbox)
            && multiset(st.adverts) <= multiset(r.adverts)
            && st.postsByAuthor.Keys <= r.postsByAuthor.Keys
            && (forall a :: a in st.postsByAuthor ==> multiset(st.postsByAuthor[a]) <= multiset(r.postsByAuthor[a]))
  {
    var r := Dispatch(st, local, msg).st;
    var kind := msg.content.kind;
    if kind == Some("post") {
      assert r == PostHandler(st, local, msg).st;
      PostKeepsEntries(st, local, msg);
    } else if kind == Some("advert") {
      assert r == AdvertHandler(st, msg);
      InsertAddsOne(st.adverts, msg.timestamp, msg.key);
      assert r.(adverts := st.adverts) == st;
    } else {
      assert SameIndexes(r, st);
    }
  }

  lemma PostKeepsEntries(st: State, local: FeedId, msg: Message)
    ensures var r := PostHandler(st, local, msg).st;
            && multiset(st.posts) <= multiset(r.posts)
            && multiset(st.inbox) <= multiset(r.inbox)
            && multiset(st.adverts) <= multiset(r.adverts)
            && st.postsByAuthor.Keys <= r.postsByAuthor.Keys
            && (forall a :: a in st.postsByAuthor ==> multiset(st.postsByAuthor[a]) <= multiset(r.postsByAuthor[a]))
  {
    var r := PostHandler(st, local, msg).st;
    if !Empty(msg.content.text) {
      var sc := ScanLinks(Scan(st, false, false), local, msg, msg.content.links);
      ScanKeepsEntries(Scan(st, false, false), local, msg, msg.content.links);
      var o := IndexNonReply(sc.st, msg, sc.isReply);
      assert r == AddToAuthor(o.st, msg);
      InsertAddsOne(sc.st.posts, msg.timestamp, msg.key);
      assert multiset(sc.st.posts) <= multiset(o.st.posts);
      InsertAddsOne(PostsBy(st, msg.author), msg.timestamp, msg.key);
      forall a | a in st.postsByAuthor
        ensures multiset(st.postsByAuthor[a]) <= multiset(r.postsByAuthor[a])
      {
        if a == msg.author {
          assert PostsBy(st, a) == st.postsByAuthor[a];
        }
      }
    }
  }

  /** The count getters never go down. */
  lemma DispatchCountsGrow(st: State, local: FeedId, msg: Message)
    ensures var r := Dispatch(st, local, msg).st;
            |st.posts| <= |r.posts| && |st.inbox| <= |r.inbox| && |st.adverts| <= |r.adverts|
  {
    var r := Dispatch(st, local, msg).st;
    DispatchKeepsEntries(st, local, msg);
    SubBagShorter(st.posts, r.posts);
    SubBagShorter(st.inbox, r.inbox);
    SubBagShorter(st.adverts, r.adverts);
  }

  lemma SubBagShorter(a: Index, b: Index)
    requires multiset(a) <= multiset(b)
    ensures |a| <= |b|
  {
    assert multiset(b) == multiset(a) + (multiset(b) - multiset(a));
    assert |multiset(a)| == |a| && |multiset(b)| == |b|;
  }

  /** `myposts` is the local feed's entry of `postsByAuthor`, so a local post
      with text shows up in it, at its sorted position. */
  lemma LocalPostInMyPosts(st: State, local: FeedId, msg: Message)
    requires msg.content.kind == Some("post") && msg.author == local && !Empty(msg.content.text)
    ensures var r := Dispatch(st, local, msg).st;
            && MyPosts(r, local) == SortedInsert(MyPosts(st, local), msg.timestamp, msg.key)
            && Contains(MyPosts(r, local), msg.key)
  {
    AuthorIndexGrows(st, local, msg);
    ContainsAfterInsert(MyPosts(st, local), msg.timestamp, msg.key, msg.key);
  }

  /** A post with text and no `replies-to` link enters the post index and is
      announced, unless the index already lists it. */
  lemma NonReplyAnnounced(st: State, local: FeedId, msg: Message)
    requires msg.content.kind == Some("post") && !Empty(msg.content.text)
    requires !HasReplyLink(msg.content.links)
    ensures var o := Dispatch(st, local, msg);
            && (!Contains(st.posts, msg.key) ==>
                  o.st.posts == SortedInsert(st.posts, msg.timestamp, msg.key) && o.emitted == [msg])
            && (Contains(st.posts, msg.key) ==> o.st.posts == st.posts && o.emitted == [])
  {
    assert Dispatch(st, local, msg) == PostHandler(st, local, msg);
  }

  /** A post with a `replies-to` link is never announced. */
  lemma ReplyNotAnnounced(st: State, local: FeedId, msg: Message)
    requires msg.content.kind == Some("post") && HasReplyLink(msg.content.links)
    ensures Dispatch(st, local, msg).emitted == []
  {
    assert Dispatch(st, local, msg) == PostHandler(st, local, msg);
  }

  /** The per-author index has no duplicate guard: handling the same post
      twice lists it twice in its author's index. */
  lemma RepeatedPostListedTwice(st: State, local: FeedId, msg: Message)
    requires msg.content.kind == Some("post") && !Empty(msg.content.text)
    ensures var r := Dispatch(Dispatch(st, local, msg).st, local, msg).st;
            var e := Entry(msg.timestamp, msg.key);
            multiset(PostsBy(r, msg.author))[e] == multiset(PostsBy(st, msg.author))[e] + 2
  {
    var r1 := Dispatch(st, local, msg).st;
    AuthorIndexGrows(st, local, msg);
    AuthorIndexGrows(r1, local, msg);
    InsertAddsOne(PostsBy(st, msg.author), msg.timestamp, msg.key);
    InsertAddsOne(PostsBy(r1, msg.author), msg.timestamp, msg.key);
  }

  /** A post with text joins its author's index at its sorted position. */
  lemma AuthorIndexGrows(st: State, local: FeedId, msg: Message)
    requires msg.content.kind == Some("post") && !Empty(msg.content.text)
    ensures PostsBy(Dispatch(st, local, msg).st, msg.author) == SortedInsert(PostsBy(st, msg.author), msg.timestamp, msg.key)
  {
    assert Dispatch(st, local, msg) == PostHandler(st, local, msg);
  }
}

=== FILE: sorted_index.dfy ===
/**
  The sorted-index primitive of the processor: a sequence of `(ts, key)`
  entries kept in non-increasing timestamp order. Posts, per-author posts,
  the inbox, the adverts and every thread's replies are such indexes.
 */
module SortedIndex {

  datatype Entry = Entry(ts: int, key: string)

  type Index = seq<Entry>

  /** Non-increasing by timestamp (newest first). */
  predicate Sorted(ix: Index) {
    forall i, j :: 0 <= i < j < |ix| ==> ix[i].ts >= ix[j].ts
  }

  /** No key occurs twice. */
  predicate UniqueKeys(ix: Index) {
    forall i, j :: 0 <= i < j < |ix| ==> ix[i].key != ix[j].key
  }

  /** Position of the first entry whose timestamp is strictly smaller than `ts`,
      or the length of the index when there is none. */
  function InsertPos(ix: Index, ts: int): (p: nat)
    ensures p <= |ix|
    ensures forall i :: 0 <= i < p ==> ix[i].ts >= ts
    ensures p < |ix| ==> ix[p].ts < ts
  {
    if |ix| == 0 then 0
    else if ix[0].ts < ts then 0
    else 1 + InsertPos(ix[1..], ts)
  }

  /** The index with `Entry(ts, key)` spliced in at `InsertPos`. */
  function Spliced(ix: Index, ts: int, key: string): (r: Index)
    ensures |r| == |ix| + 1
    ensures var p := InsertPos(ix, ts);
            && r[p] == Entry(ts, key)
            && (forall i :: 0 <= i < p ==> r[i] == ix[i])
            && (forall i :: p < i < |r| ==> r[i] == ix[i - 1])
  {
    ix[..InsertPos(ix, ts)] + [Entry(ts, key)] + ix[InsertPos(ix, ts)..]
  }

  /** Splicing into a non-empty index whose head is not older than `ts`
      keeps the head in front. */
  lemma SplicedCons(ix: Index, ts: int, key: string)
    requires |ix| > 0 && ix[0].ts >= ts
    ensures Spliced(ix, ts, key) == [ix[0]] + Spliced(ix[1..], ts, key)
  {
    var p := InsertPos(ix[1..], ts);
    assert InsertPos(ix, ts) == p + 1;
    assert ix[..p + 1] == [ix[0]] + ix[1..][..p];
    assert ix[p + 1..] == ix[1..][p..];
  }

  /** `sortedInsert`: walk from the front and splice the new entry in before
      the first entry with a strictly smaller timestamp, else append. One
      entry longer, headed by the old head or the new entry, and a
      newest-first index stays newest first. */
  function SortedInsert(ix: Index, ts: int, key: string): (r: Index)
    ensures |r| == |ix| + 1
    ensures r[0] == Entry(ts, key) || (|ix| > 0 && r[0] == ix[0] && ix[0].ts >= ts)
    ensures Sorted(ix) ==> Sorted(r)
  {
    if |ix| == 0 || ix[0].ts < ts then [Entry(ts, key)] + ix
    else [ix[0]] + SortedInsert(ix[1..], ts, key)
  }

  /** The scan puts the new entry exactly at `InsertPos`. */
  lemma {:induction false} InsertIsSpliced(ix: Index, ts: int, key: string)
    ensures SortedInsert(ix, ts, key) == Spliced(ix, ts, key)
    decreases |ix|
  {
    if |ix| == 0 || ix[0].ts < ts {
      assert InsertPos(ix, ts) == 0;
      assert Spliced(ix, ts, key) == [Entry(ts, key)] + ix;
    } else {
      InsertIsSpliced(ix[1..], ts, key);
      SplicedCons(ix, ts, key);
    }
  }

  /** `contains`: some entry carries the key. */
  function Contains(ix: Index, key: string): (b: bool)
    ensures b <==> exists i :: 0 <= i < |ix| && ix[i].key == key
  {
    if |ix| == 0 then false
    else if ix[0].key == key then true
    else Contains(ix[1..], key)
  }

  /** The new entry lands after every existing entry with an equal timestamp
      and before every entry with a smaller one. */
  lemma InsertTiesAfter(ix: Index, ts: int, key: string)
    requires Sorted(ix)
    ensures var r := SortedInsert(ix, ts, key);
            var p := InsertPos(ix, ts);
            r[p] == Entry(ts, key)
            && (forall i :: 0 <= i < p ==> r[i].ts >= ts)
            && (forall i :: p < i < |r| ==> r[i].ts < ts)
  {
    var p := InsertPos(ix, ts);
    var r := SortedInsert(ix, ts, key);
    InsertIsSpliced(ix, ts, key);
    forall i | p < i < |r|
      ensures r[i].ts < ts
    {
      assert r[i] == ix[i - 1];
      assert ix[p].ts >= ix[i - 1].ts;
    }
  }

  /** Membership after an insert: the old keys plus the new one. */
  lemma ContainsAfterInsert(ix: Index, ts: int, key: string, k: string)
    ensures Contains(SortedInsert(ix, ts, key), k) <==> Contains(ix, k) || k == key
  {
    var r := SortedInsert(ix, ts, key);
    var p := InsertPos(ix, ts);
    InsertIsSpliced(ix, ts, key);
    assert r[p].key == key;
    if Contains(ix, k) {
      var i :| 0 <= i < |ix| && ix[i].key == k;
      if i < p {
        assert r[i] == ix[i];
      } else {
        assert r[i + 1] == ix[i];
      }
    }
    if Contains(r, k) && k != key {
      var i :| 0 <= i < |r| && r[i].key == k;
      if i < p {
        assert ix[i] == r[i];
      } else {
        assert ix[i - 1] == r[i];
      }
    }
  }

  /** Inserting a key that is not yet present keeps keys unique. */
  lemma InsertKeepsUnique(ix: Index, ts: int, key: string)
    requires UniqueKeys(ix)
    requires !Contains(ix, key)
    ensures UniqueKeys(SortedInsert(ix, ts, key))
  {
    var r := SortedInsert(ix, ts, key);
    var p := InsertPos(ix, ts);
    InsertIsSpliced(ix, ts, key);
    forall i, j | 0 <= i < j < |r|
      ensures r[i].key != r[j].key
    {
      if i == p {
        assert r[j] == ix[j - 1];
      } else if j == p {
        assert r[i] == ix[i];
      } else {
        var i' := if i < p then i else i - 1;
        var j' := if j < p then j else j - 1;
        assert r[i] == ix[i'] && r[j] == ix[j'] && i' < j';
      }
    }
  }

  /** Inserting loses no entry and adds exactly the new one. */
  lemma InsertAddsOne(ix: Index, ts: int, key: string)
    ensures multiset(SortedInsert(ix, ts, key)) == multiset(ix) + multiset{Entry(ts, key)}
  {
    var p := InsertPos(ix, ts);
    InsertIsSpliced(ix, ts, key);
    var a, b := ix[..p], ix[p..];
    assert ix == a + b;
    assert multiset(ix) == multiset(a) + multiset(b);
    assert multiset(a + [Entry(ts, key)] + b) == multiset(a) + multiset{Entry(ts, key)} + multiset(b);
  }
}

=== FILE: state.dfy ===
/**
  The shared in-memory state the processor updates: the four kinds of sorted
  index, the profiles, the name bindings and the thread forest.
 */
module IndexState {
  import opened Wrappers
  import opened SortedIndex
  import opened AssocList
  import opened Messages

  /** A profile, created lazily by `getProfile`. `trust` is the numeric trust
      value last declared by the local feed (0 when none). */
  datatype Profile = Profile(
    id: FeedId,
    selfName: Option<string>,
    assignedBy: AList,
    assignedTo: AList,
    trust: int,
    createdAt: Option<int>)

  /** One thread node: the replied-to message (if any), the replies newest
      first, and the number of replies in the whole subtree. */
  datatype Thread = Thread(parent: Option<Key>, replies: Index, numThreadReplies: nat)

  datatype State = State(
    posts: Index,
    postsByAuthor: map<FeedId, Index>,
    inbox: Index,
    adverts: Index,
    profiles: map<FeedId, Profile>,
    names: map<FeedId, Option<string>>,
    ids: map<string, FeedId>,
    nameTrustRanks: map<FeedId, int>,
    trustedProfiles: set<FeedId>,
    threads: map<Key, Thread>)

  /** The profile `getProfile` would create. */
  function NewProfile(pid: FeedId): Profile {
    Profile(pid, None, [], [], 0, None)
  }

  /** The state built at start-up for the local feed `local`: every index
      empty and the local feed's per-author index present (it is `myposts`).
      The maps the start-up code leaves uninitialised are taken to be empty. */
  function InitialState(local: FeedId): (st: State)
    ensures local in st.postsByAuthor && st.postsByAuthor[local] == []
    ensures st.posts == [] && st.inbox == [] && st.adverts == []
    ensures st.postsByAuthor == map[local := []]
    ensures st.profiles == map[] && st.threads == map[] && st.ids == map[]
    ensures st.names == map[] && st.nameTrustRanks == map[] && st.trustedProfiles == {}
  {
    State([], map[local := []], [], [], map[], map[], map[], map[], {}, map[])
  }

  /** `getPostsBy`: an unknown author has an empty list. */
  function PostsBy(st: State, author: FeedId): (r: Index)
    ensures author !in st.postsByAuthor ==> r == []
    ensures author in st.postsByAuthor ==> r == st.postsByAuthor[author]
  {
    if author in st.postsByAuthor then st.postsByAuthor[author] else []
  }

  /** `state.myposts`: the very sequence stored as the local feed's entry of
      `postsByAuthor`, so it is the local feed's `getPostsBy` list. */
  function MyPosts(st: State, local: FeedId): (r: Index)
    ensures local in st.postsByAuthor ==> r == st.postsByAuthor[local]
  {
    PostsBy(st, local)
  }

  /** `getProfile` on the state: the profile of `pid`, or a fresh one. */
  function ProfileOf(st: State, pid: FeedId): Profile {
    if pid in st.profiles then st.profiles[pid] else NewProfile(pid)
  }

  /** `getProfile`: make sure `pid` has a profile; nothing else changes. */
  function GetProfile(st: State, pid: FeedId): (r: State)
    ensures r.profiles.Keys == st.profiles.Keys + {pid}
    ensures r.profiles[pid] == ProfileOf(st, pid)
    ensures forall x :: x in st.profiles ==> r.profiles[x] == st.profiles[x]
    ensures forall x :: ProfileOf(r, x) == ProfileOf(st, x)
    ensures r.(profiles := st.profiles) == st
  {
    if pid in st.profiles then st
    else st.(profiles := st.profiles[pid := NewProfile(pid)])
  }

  /** Replace the profile of `pid` (which must exist). */
  function SetProfile(st: State, pid: FeedId, p: Profile): (r: State)
    ensures r.profiles.Keys == st.profiles.Keys + {pid}
    ensures ProfileOf(r, pid) == p
    ensures forall x :: x != pid ==> ProfileOf(r, x) == ProfileOf(st, x)
    ensures r.(profiles := st.profiles) == st
  {
    st.(profiles := st.profiles[pid := p])
  }

  /** The post, inbox, advert and thread indexes of two states agree. */
  predicate SameIndexes(a: State, b: State) {
    a.posts == b.posts && a.postsByAuthor == b.postsByAuthor && a.inbox == b.inbox
    && a.adverts == b.adverts && a.threads == b.threads
  }

  /** The four flat indexes and every author's index are newest first. */
  ghost predicate IndexesSorted(st: State) {
    && Sorted(st.posts) && Sorted(st.inbox) && Sorted(st.adverts)
    && forall a :: a in st.postsByAuthor ==> Sorted(st.postsByAuthor[a])
  }
}

=== FILE: text.dfy ===
/**
  Whitespace handling shared by the processor and the publishers: the
  whitespace class of JavaScript (`\s` in a regular expression and the set
  `String.prototype.trim` removes are the same), the `empty` guard and
  `noSpaces`.
 */
module Text {
  import opened Wrappers

  /** JavaScript WhiteSpace and LineTerminator code points. */
  predicate IsSpace(c: char) {
    var n := c as int;
    n == 0x09 || n == 0x0A || n == 0x0B || n == 0x0C || n == 0x0D || n == 0x20
    || n == 0xA0 || n == 0x1680 || (0x2000 <= n <= 0x200A)
    || n == 0x2028 || n == 0x2029 || n == 0x202F || n == 0x205F
    || n == 0x3000 || n == 0xFEFF
  }

  /** `s.trim()` is the empty string. */
  predicate Blank(s: string) {
    forall i :: 0 <= i < |s| ==> IsSpace(s[i])
  }

  /** The processor's `empty(str)`: absent, or nothing left after trimming. */
  predicate Empty(v: Option<string>) {
    v.None? || Blank(v.value)
  }

  /** A text passes the guard exactly when it is present and has a character
      that is not whitespace; the empty string fails it. */
  lemma EmptyGuard(v: Option<string>)
    ensures !Empty(v) <==> v.Some? && exists i :: 0 <= i < |v.value| && !IsSpace(v.value[i])
    ensures Empty(Some(""))
  {
  }

  /** `noSpaces`: every whitespace character becomes an underscore. */
  function NoSpaces(s: string): (r: string)
    ensures |r| == |s|
    ensures forall i :: 0 <= i < |s| ==> (IsSpace(s[i]) ==> r[i] == '_') && (!IsSpace(s[i]) ==> r[i] == s[i])
    ensures forall i :: 0 <= i < |r| ==> !IsSpace(r[i])
  {
    if |s| == 0 then ""
    else [if IsSpace(s[0]) then '_' else s[0]] + NoSpaces(s[1..])
  }

  /** A name that passed the `empty` guard stays non-blank (hence truthy) after
      `noSpaces`, and `noSpaces` is idempotent. */
  lemma NoSpacesKeepsName(s: string)
    requires !Blank(s)
    ensures NoSpaces(s) != "" && !Blank(NoSpaces(s))
    ensures NoSpaces(NoSpaces(s)) == NoSpaces(s)
  {
    var r := NoSpaces(s);
    assert |r| > 0 && !IsSpace(r[0]);
    var rr := NoSpaces(r);
    assert forall i :: 0 <= i < |r| ==> rr[i] == r[i];
  }
}

=== FILE: threads.dfy ===
/**
  Reply threading: the thread forest (`state.threads`), the walk that adds
  one to `numThreadReplies` up the parent chain, and the per-link step of
  the `post` handler for a `replies-to` link.
 */
module Threads {
  import opened Wrappers
  import opened SortedIndex
  import opened Messages
  import opened IndexState

  /** The parent pointers of the forest. */
  type Parents = map<Key, Option<Key>>

  function ParentsOf(t: map<Key, Thread>): (ps: Parents)
    ensures ps.Keys == t.Keys
    ensures forall k :: k in t ==> ps[k] == t[k].parent
  {
    map k | k in t :: t[k].parent
  }

  /** The nodes the parent walk visits from `k`: `k` itself if it has a node,
      then its parent's chain. `seen` holds the nodes already visited; the walk
      never enters one twice. */
  function Chain(ps: Parents, k: Key, seen: set<Key>): seq<Key>
    decreases ps.Keys - seen
  {
    if k !in ps || k in seen then []
    else
      [k] + match ps[k]
            case None => []
            case Some(p) => Chain(ps, p, seen + {k})
  }

  /** The walk from `k` leaves the forest (reaches a node without a parent, or
      a parent without a node) without coming back to a visited node. */
  predicate EndsAtRoot(ps: Parents, k: Key, seen: set<Key>)
    decreases ps.Keys - seen
  {
    k !in ps
    || (k !in seen
        && match ps[k]
           case None => true
           case Some(p) => EndsAtRoot(ps, p, seen + {k}))
  }

  /** No parent chain of the forest runs in a circle. */
  ghost predicate Acyclic(t: map<Key, Thread>) {
    AcyclicParents(ParentsOf(t))
  }

  ghost predicate AcyclicParents(ps: Parents) {
    forall k :: k in ps ==> EndsAtRoot(ps, k, {})
  }

  /** No node has `key` as its parent: nobody has replied to `key` yet. */
  ghost predicate NoReplyTo(t: map<Key, Thread>, key: Key) {
    forall x :: x in t ==> t[x].parent != Some(key)
  }

  /** Every parent pointer leads to a node: a reply's target always gets a
      node before the reply's own node points at it. */
  ghost predicate Closed(t: map<Key, Thread>) {
    ClosedParents(ParentsOf(t))
  }

  ghost predicate ClosedParents(ps: Parents) {
    forall x :: x in ps && ps[x].Some? ==> ps[x].value in ps
  }

  /** A reply from `key` to `target` closes no circle: the target is another
      message and `key` is not on the target's parent chain. Exactly then the
      parent walk that follows the reply ends. */
  ghost predicate CanReply(t: map<Key, Thread>, key: Key, target: Key) {
    target != key && key !in Chain(ParentsOf(t), target, {})
  }

  /** `s` follows parent pointers from node to node and stops at a node
      without a parent, or whose parent has no node. */
  ghost predicate IsPath(ps: Parents, s: seq<Key>) {
    && |s| > 0
    && (forall i :: 0 <= i < |s| ==> s[i] in ps)
    && (forall i :: 0 <= i < |s| - 1 ==> ps[s[i]] == Some(s[i + 1]))
    && (ps[s[|s| - 1]].None? || ps[s[|s| - 1]].value !in ps)
  }

  ghost predicate Distinct(s: seq<Key>) {
    forall i, j :: 0 <= i < j < |s| ==> s[i] != s[j]
  }

  /** The `do { t.numThreadReplies++; t = state.threads[t.parent] } while (t)`
      loop, from node `k`. */
  function Walk(t: map<Key, Thread>, k: Key, seen: set<Key>): (r: map<Key, Thread>)
    ensures r.Keys == t.Keys
    ensures forall x :: x in t ==> r[x].parent == t[x].parent && r[x].replies == t[x].replies
    decreases t.Keys - seen
  {
    if k !in t || k in seen then t
    else
      var t1 := t[k := t[k].(numThreadReplies := t[k].numThreadReplies + 1)];
      assert t1.Keys == t.Keys;
      match t[k].parent
      case None => t1
      case Some(p) => Walk(t1, p, seen + {k})
  }

  /** The chain never contains a visited node, never repeats a node, starts at
      `k`, follows parent pointers, and, when the walk ends at a root, stops
      at a node whose parent is absent or has no node. */
  lemma {:induction false} ChainIsParentWalk(ps: Parents, k: Key, seen: set<Key>)
    ensures var c := Chain(ps, k, seen);
            && (forall i :: 0 <= i < |c| ==> c[i] in ps && c[i] !in seen)
            && (forall i, j :: 0 <= i < j < |c| ==> c[i] != c[j])
            && (k in ps && k !in seen <==> |c| > 0)
            && (|c| > 0 ==> c[0] == k)
            && (forall i :: 0 <= i < |c| - 1 ==> ps[c[i]] == Some(c[i + 1]))
            && (EndsAtRoot(ps, k, seen) && |c| > 0 ==>
                  ps[c[|c| - 1]].None? || ps[c[|c| - 1]].value !in ps)
    decreases ps.Keys - seen
  {
    if k !in ps || k in seen {
    } else {
      match ps[k]
      case None =>
      case Some(p) =>
        ChainIsParentWalk(ps, p, seen + {k});
        var rest := Chain(ps, p, seen + {k});
        var c := Chain(ps, k, seen);
        assert c == [k] + rest;
        assert forall i :: 1 <= i < |c| ==> c[i] == rest[i - 1];
        if |rest| > 0 {
          assert c[1] == p;
          assert c[|c| - 1] == rest[|rest| - 1];
        } else if EndsAtRoot(ps, k, seen) {
          assert EndsAtRoot(ps, p, seen + {k});
          assert p !in ps;
        }
    }
  }

  /** The walk adds one to the reply count of exactly the nodes on the chain. */
  lemma {:induction false} WalkCountsChain(t: map<Key, Thread>, k: Key, seen: set<Key>)
    ensures var r := Walk(t, k, seen);
            forall x :: x in t ==>
              r[x].numThreadReplies
              == t[x].numThreadReplies + if x in Chain(ParentsOf(t), k, seen) then 1 else 0
    decreases t.Keys - seen
  {
    if k !in t || k in seen {
    } else {
      var t1 := t[k := t[k].(numThreadReplies := t[k].numThreadReplies + 1)];
      assert t1.Keys == t.Keys;
      assert ParentsOf(t1) == ParentsOf(t);
      match t[k].parent
      case None =>
      case Some(p) =>
        WalkCountsChain(t1, p, seen + {k});
        ChainIsParentWalk(ParentsOf(t), p, seen + {k});
    }
  }

  /** A walk that does not run in a circle may forget fewer visited nodes. */
  lemma {:induction false} EndsWithLessSeen(ps: Parents, k: Key, small: set<Key>, big: set<Key>)
    requires small <= big
    requires EndsAtRoot(ps, k, big)
    ensures EndsAtRoot(ps, k, small)
    decreases ps.Keys - small
  {
    if k in ps {
      match ps[k]
      case None =>
      case Some(p) => EndsWithLessSeen(ps, p, small + {k}, big + {k});
    }
  }

  /** Adding a node without a parent keeps every walk ending at a root. */
  lemma {:induction false} EndsAfterNewRoot(ps: Parents, root: Key, k: Key, seen: set<Key>)
    requires root !in ps
    requires seen <= ps.Keys
    requires EndsAtRoot(ps, k, seen)
    ensures EndsAtRoot(ps[root := None], k, seen)
    decreases ps.Keys - seen
  {
    if k in ps {
      match ps[k]
      case None =>
      case Some(p) => EndsAfterNewRoot(ps, root, p, seen + {k});
    }
  }

  /** From a node whose walk ends at a root, the chain is a path of distinct
      nodes starting at that node. */
  lemma ChainIsPath(ps: Parents, k: Key)
    requires k in ps && EndsAtRoot(ps, k, {})
    ensures var c := Chain(ps, k, {});
            IsPath(ps, c) && Distinct(c) && c[0] == k
  {
    ChainIsParentWalk(ps, k, {});
  }

  lemma SuffixIsPath(ps: Parents, s: seq<Key>, j: int)
    requires IsPath(ps, s) && 0 <= j < |s|
    ensures IsPath(ps, s[j..])
  {
    assert forall i :: 0 <= i < |s| - j ==> s[j..][i] == s[j + i];
  }

  /** A path goes on past its first node exactly when that node's parent
      has a node, and then goes on to that parent. */
  lemma PathHead(ps: Parents, s: seq<Key>)
    requires IsPath(ps, s)
    ensures |s| > 1 <==> ps[s[0]].Some? && ps[s[0]].value in ps
    ensures |s| > 1 ==> s[1] == ps[s[0]].value
  {
    if |s| == 1 {
      assert s[|s| - 1] == s[0];
    } else {
      assert ps[s[0]] == Some(s[1]) && s[1] in ps;
    }
  }

  /** Parent pointers are a function: two paths from the same node are the
      same path. */
  lemma {:induction false} PathsAgree(ps: Parents, a: seq<Key>, b: seq<Key>)
    requires IsPath(ps, a) && IsPath(ps, b) && a[0] == b[0]
    ensures a == b
    decreases |a|
  {
    PathHead(ps, a);
    PathHead(ps, b);
    if |a| > 1 {
      SuffixIsPath(ps, a, 1);
      SuffixIsPath(ps, b, 1);
      PathsAgree(ps, a[1..], b[1..]);
      assert a == [a[0]] + a[1..] && b == [b[0]] + b[1..];
    }
  }

  /** A path of distinct nodes, none of them visited yet, is a walk that
      ends at a root. */
  lemma {:induction false} PathEnds(ps: Parents, s: seq<Key>, seen: set<Key>)
    requires IsPath(ps, s) && Distinct(s)
    requires forall i :: 0 <= i < |s| ==> s[i] !in seen
    ensures EndsAtRoot(ps, s[0], seen)
    decreases |s|
  {
    if |s| > 1 {
      var rest := s[1..];
      SuffixIsPath(ps, s, 1);
      assert forall i :: 0 <= i < |rest| ==> rest[i] == s[i + 1];
      PathEnds(ps, rest, seen + {s[0]});
    } else {
      PathHead(ps, s);
    }
  }

  /** A path that avoids `leaf` is still a path once `leaf` gets a parent. */
  lemma PathAvoidingLeaf(ps: Parents, leaf: Key, parent: Key, s: seq<Key>)
    requires ClosedParents(ps) && IsPath(ps, s)
    requires forall i :: 0 <= i < |s| ==> s[i] != leaf
    ensures IsPath(ps[leaf := Some(parent)], s)
  {
  }

  /** If two paths meet, the later nodes of the first path lie on the
      second. */
  lemma PathsMeet(ps: Parents, c: seq<Key>, d: seq<Key>, j: int, m: int, i: int)
    requires IsPath(ps, c) && IsPath(ps, d)
    requires 0 <= j <= i < |c| && 0 <= m < |d|
    ensures c[j] == d[m] ==> m + (i - j) < |d| && d[m + (i - j)] == c[i]
  {
    if c[j] == d[m] {
      SuffixIsPath(ps, c, j);
      SuffixIsPath(ps, d, m);
      PathsAgree(ps, c[j..], d[m..]);
      assert c[i] == c[j..][i - j];
    }
  }

  /** Once `leaf` points at `parent`, the walk from a node whose path passes
      through `leaf` runs along that path up to `leaf` and then along the
      parent's path. */
  lemma ThroughLeafPath(ps: Parents, leaf: Key, parent: Key, c: seq<Key>, d: seq<Key>, i: int)
    requires ClosedParents(ps)
    requires IsPath(ps, c) && Distinct(c) && 0 <= i < |c| && c[i] == leaf
    requires IsPath(ps, d) && Distinct(d) && d[0] == parent
    requires forall m :: 0 <= m < |d| ==> d[m] != leaf
    ensures IsPath(ps[leaf := Some(parent)], c[..i + 1] + d)
    ensures Distinct(c[..i + 1] + d)
  {
    var s := c[..i + 1] + d;
    assert forall x :: 0 <= x <= i ==> s[x] == c[x];
    assert forall x :: i < x < |s| ==> s[x] == d[x - i - 1];
    forall j, m | 0 <= j <= i && 0 <= m < |d|
      ensures c[j] != d[m]
    {
      PathsMeet(ps, c, d, j, m, i);
    }
  }

  /** Once `leaf` points at `parent`, the walk from `leaf` runs along the
      parent's path. */
  lemma LeafPath(ps: Parents, leaf: Key, parent: Key, d: seq<Key>)
    requires ClosedParents(ps)
    requires IsPath(ps, d) && Distinct(d) && d[0] == parent
    requires forall m :: 0 <= m < |d| ==> d[m] != leaf
    ensures IsPath(ps[leaf := Some(parent)], [leaf] + d)
    ensures Distinct([leaf] + d)
  {
    var s := [leaf] + d;
    assert forall x :: 0 < x < |s| ==> s[x] == d[x - 1];
  }

  /** Giving `leaf` the parent `parent`, when `leaf` is not on the parent's
      chain, keeps a closed forest free of cycles. */
  lemma ReparentKeepsAcyclic(ps: Parents, leaf: Key, parent: Key)
    requires AcyclicParents(ps) && ClosedParents(ps)
    requires parent in ps && leaf !in Chain(ps, parent, {})
    ensures AcyclicParents(ps[leaf := Some(parent)])
  {
    var ps' := ps[leaf := Some(parent)];
    var d := Chain(ps, parent, {});
    ChainIsPath(ps, parent);
    forall k | k in ps'
      ensures EndsAtRoot(ps', k, {})
    {
      if k == leaf {
        LeafPath(ps, leaf, parent, d);
        PathEnds(ps', [leaf] + d, {});
      } else {
        var c := Chain(ps, k, {});
        ChainIsPath(ps, k);
        if i :| 0 <= i < |c| && c[i] == leaf {
          ThroughLeafPath(ps, leaf, parent, c, d, i);
          PathEnds(ps', c[..i + 1] + d, {});
        } else {
          PathAvoidingLeaf(ps, leaf, parent, c);
          PathEnds(ps', c, {});
        }
      }
    }
  }

  /** Chains that never touch a changed pointer do not change. */
  lemma {:induction false} ChainStable(ps: Parents, ps': Parents, k: Key, seen: set<Key>)
    requires ClosedParents(ps)
    requires k in ps || k !in ps' || k in seen
    requires forall x :: x in Chain(ps, k, seen) ==> x in ps && x in ps' && ps'[x] == ps[x]
    ensures Chain(ps', k, seen) == Chain(ps, k, seen)
    decreases ps.Keys - seen
  {
    if k in ps && k !in seen {
      assert k in Chain(ps, k, seen);
      match ps[k]
      case None =>
      case Some(p) =>
        assert forall x :: x in Chain(ps, p, seen + {k}) ==> x in Chain(ps, k, seen);
        ChainStable(ps, ps', p, seen + {k});
    }
  }

  /** The existing replies of a message (none when it has no node). */
  function RepliesOf(t: map<Key, Thread>, k: Key): Index {
    if k in t then t[k].replies else []
  }

  /** The reply count a node had (0 when it had no node). */
  function CountOf(t: map<Key, Thread>, k: Key): nat {
    if k in t then t[k].numThreadReplies else 0
  }

  /** The thread nodes after attaching reply `key` to `target`, before the
      counts are propagated. */
  function Attach(t: map<Key, Thread>, key: Key, ts: int, target: Key): (r: map<Key, Thread>)
    ensures r.Keys == t.Keys + {target, key}
    ensures r[key] == Thread(Some(target), [], 0)
    ensures key != target ==> r[target] == Thread(if target in t then t[target].parent else None,
                                                   SortedInsert(RepliesOf(t, target), ts, key),
                                                   CountOf(t, target))
    ensures forall x :: x in t && x != target && x != key ==> r[x] == t[x]
  {
    var t1 := if target !in t then t[target := Thread(None, [], 0)] else t;
    var t2 := t1[target := t1[target].(replies := SortedInsert(t1[target].replies, ts, key))];
    t2[key := Thread(Some(target), [], 0)]
  }

  /** `posts` after the target of a reply is looked at: a target that has no
      node yet and is not indexed is promoted at the reply's timestamp. */
  function Promote(st: State, ts: int, target: Key): (r: Index)
    ensures target in st.threads || Contains(st.posts, target) ==> r == st.posts
    ensures target !in st.threads && !Contains(st.posts, target) ==> r == SortedInsert(st.posts, ts, target)
  {
    if target !in st.threads && !Contains(st.posts, target) then SortedInsert(st.posts, ts, target)
    else st.posts
  }

  /** One `replies-to` link from message `key` (timestamp `ts`) to `target`:
      promote the target if needed, attach the reply, and count it on every
      node up the target's parent chain. */
  function ThreadReply(st: State, key: Key, ts: int, target: Key): (r: State)
    ensures r.posts == Promote(st, ts, target)
    ensures r.threads.Keys == st.threads.Keys + {target, key}
    ensures r.(posts := st.posts, threads := st.threads) == st
  {
    st.(posts := Promote(st, ts, target), threads := Walk(Attach(st.threads, key, ts, target), target, {}))
  }

  /** The parent pointers after `Attach`: the target keeps its parent (or is a
      new root) and the reply points at the target. */
  lemma AttachParents(t: map<Key, Thread>, key: Key, ts: int, target: Key)
    requires key != target
    ensures var ps1 := if target in t then ParentsOf(t) else ParentsOf(t)[target := None];
            ParentsOf(Attach(t, key, ts, target)) == ps1[key := Some(target)]
  {
  }

  /** A new root keeps a forest free of cycles. */
  lemma AddRootKeepsAcyclic(ps: Parents, root: Key)
    requires root !in ps
    requires AcyclicParents(ps)
    ensures AcyclicParents(ps[root := None])
  {
    var ps' := ps[root := None];
    forall k | k in ps'
      ensures EndsAtRoot(ps', k, {})
    {
      if k != root {
        EndsAfterNewRoot(ps, root, k, {});
      }
    }
  }

  /** Attaching a reply that closes no circle keeps a closed forest closed
      and free of cycles; if nobody had replied to the reply yet, nobody
      has afterwards. */
  lemma AttachKeepsForest(t: map<Key, Thread>, key: Key, ts: int, target: Key)
    requires Acyclic(t) && Closed(t) && CanReply(t, key, target)
    ensures Acyclic(Attach(t, key, ts, target)) && Closed(Attach(t, key, ts, target))
    ensures NoReplyTo(t, key) ==> NoReplyTo(Attach(t, key, ts, target), key)
  {
    AttachKeepsClosed(t, key, ts, target);
    AttachKeepsAcyclic(t, key, ts, target);
  }

  /** Attaching keeps every parent pointer leading to a node, and points
      nothing new at the reply itself. */
  lemma AttachKeepsClosed(t: map<Key, Thread>, key: Key, ts: int, target: Key)
    requires Closed(t) && key != target
    ensures Closed(Attach(t, key, ts, target))
    ensures NoReplyTo(t, key) ==> NoReplyTo(Attach(t, key, ts, target), key)
  {
    AttachParents(t, key, ts, target);
  }

  lemma AttachKeepsAcyclic(t: map<Key, Thread>, key: Key, ts: int, target: Key)
    requires Acyclic(t) && Closed(t) && CanReply(t, key, target)
    ensures Acyclic(Attach(t, key, ts, target))
  {
    var ps := ParentsOf(t);
    var ps1 := if target in t then ps else ps[target := None];
    if target !in t {
      AddRootKeepsAcyclic(ps, target);
      assert Chain(ps1, target, {}) == [target];
    }
    AttachParents(t, key, ts, target);
    ReparentKeepsAcyclic(ps1, key, target);
  }

  /** Attaching a reply from `key` that closes no circle leaves every other
      reply from `key` that closed none still closing none. */
  lemma AttachKeepsCanReply(t: map<Key, Thread>, key: Key, ts: int, target: Key, other: Key)
    requires Closed(t) && CanReply(t, key, target) && CanReply(t, key, other)
    ensures CanReply(Attach(t, key, ts, target), key, other)
  {
    var ps := ParentsOf(t);
    var ps' := ParentsOf(Attach(t, key, ts, target));
    AttachParents(t, key, ts, target);
    if other in t {
      var c := Chain(ps, other, {});
      ChainIsParentWalk(ps, other, {});
      assert forall x :: x in c ==> x in ps && x != key;
      ChainStable(ps, ps', other, {});
    } else if other == target {
      assert Chain(ps', target, {}) == [target];
    } else {
      assert other !in ps';
    }
  }

  /** The shape after one `replies-to` link: the reply is in the target's
      replies, the reply's node points at the target with no replies of its
      own, no other parent pointer changes, and the forest stays closed and
      free of cycles. */
  lemma ThreadReplyShape(st: State, key: Key, ts: int, target: Key)
    requires Acyclic(st.threads) && Closed(st.threads) && CanReply(st.threads, key, target)
    ensures var t := st.threads;
            var r := ThreadReply(st, key, ts, target).threads;
            && r[target].replies == SortedInsert(RepliesOf(t, target), ts, key)
            && r[key] == Thread(Some(target), [], 0)
            && (forall x :: x in r && x != key ==> r[x].parent == if x in t then t[x].parent else None)
            && Acyclic(r) && Closed(r)
            && (NoReplyTo(t, key) ==> NoReplyTo(r, key))
  {
    var t := st.threads;
    var t3 := Attach(t, key, ts, target);
    var r := Walk(t3, target, {});
    assert ThreadReply(st, key, ts, target).threads == r;
    ThreadReplyParents(st, key, ts, target);
    AttachKeepsForest(t, key, ts, target);
    AttachKeepsCanReply(t, key, ts, target, target);
    WalkCountsChain(t3, target, {});
    assert r[key].numThreadReplies == 0;
  }

  /** The pointers and reply lists after one `replies-to` link: the walk only
      touches counts. */
  lemma ThreadReplyParents(st: State, key: Key, ts: int, target: Key)
    requires key != target
    ensures var t := st.threads;
            var r := ThreadReply(st, key, ts, target).threads;
            && ParentsOf(r) == ParentsOf(Attach(t, key, ts, target))
            && r[target].replies == SortedInsert(RepliesOf(t, target), ts, key)
            && r[key].parent == Some(target) && r[key].replies == []
            && (forall x :: x in r && x != key ==> r[x].parent == if x in t then t[x].parent else None)
  {
    var t := st.threads;
    var t3 := Attach(t, key, ts, target);
    var r := Walk(t3, target, {});
    WalkKeepsParents(t3, target);
    forall x | x in r && x != key
      ensures r[x].parent == if x in t then t[x].parent else None
    {
      assert ParentsOf(r)[x] == ParentsOf(t3)[x];
    }
  }

  /** A reply to a message that already has a node overwrites that node:
      the message's earlier replies still point at it, but it no longer lists
      them or counts them. */
  lemma ThreadReplyOverwrites(st: State, key: Key, ts: int, target: Key)
    requires Acyclic(st.threads) && Closed(st.threads) && CanReply(st.threads, key, target)
    requires key in st.threads
    ensures var r := ThreadReply(st, key, ts, target).threads;
            && r[key].replies == [] && r[key].numThreadReplies == 0
            && forall x :: x in st.threads && x != key && st.threads[x].parent == Some(key) ==>
                 x in r && r[x].parent == Some(key)
  {
    ThreadReplyShape(st, key, ts, target);
  }

  /** One `replies-to` link from `key` keeps every other reply from `key`
      that closed no circle closing none. */
  lemma ThreadReplyKeepsCanReply(st: State, key: Key, ts: int, target: Key, other: Key)
    requires Closed(st.threads) && CanReply(st.threads, key, target) && CanReply(st.threads, key, other)
    ensures CanReply(ThreadReply(st, key, ts, target).threads, key, other)
  {
    var t3 := Attach(st.threads, key, ts, target);
    WalkKeepsParents(t3, target);
    AttachKeepsCanReply(st.threads, key, ts, target, other);
  }

  /** Walking does not move parent pointers. */
  lemma WalkKeepsParents(t: map<Key, Thread>, k: Key)
    ensures ParentsOf(Walk(t, k, {})) == ParentsOf(t)
  {
  }

  /** The parent chain of the target after one `replies-to` link is a path of
      parent pointers from the target to a root. */
  lemma ThreadReplyChain(st: State, key: Key, ts: int, target: Key)
    requires Acyclic(st.threads) && Closed(st.threads) && CanReply(st.threads, key, target)
    ensures var r := ThreadReply(st, key, ts, target).threads;
            var c := Chain(ParentsOf(r), target, {});
            && |c| > 0 && c[0] == target
            && (forall i :: 0 <= i < |c| ==> c[i] in r)
            && (forall i :: 0 <= i < |c| - 1 ==> r[c[i]].parent == Some(c[i + 1]))
            && (r[c[|c| - 1]].parent.None? || r[c[|c| - 1]].parent.value !in r)
  {
    var t3 := Attach(st.threads, key, ts, target);
    WalkKeepsParents(t3, target);
    AttachKeepsForest(st.threads, key, ts, target);
    var ps3 := ParentsOf(t3);
    assert EndsAtRoot(ps3, target, {});
    ChainIsParentWalk(ps3, target, {});
  }

  /** After one `replies-to` link every node on the target's parent chain
      counts exactly one more reply and every other node keeps its count. */
  lemma ThreadReplyCounts(st: State, key: Key, ts: int, target: Key)
    requires key != target
    ensures var t := st.threads;
            var r := ThreadReply(st, key, ts, target).threads;
            forall x :: x in r && x != key ==>
              r[x].numThreadReplies == CountOf(t, x) + if x in Chain(ParentsOf(r), target, {}) then 1 else 0
  {
    var t3 := Attach(st.threads, key, ts, target);
    WalkKeepsParents(t3, target);
    WalkCountsChain(t3, target, {});
    assert forall x :: x in t3 && x != key ==> t3[x].numThreadReplies == CountOf(st.threads, x);
  }

  /** Every node's replies are newest first. */
  ghost predicate RepliesSorted(t: map<Key, Thread>) {
    forall x :: x in t ==> Sorted(t[x].replies)
  }

  /** One `replies-to` link keeps every node's replies newest first. */
  lemma ThreadReplyKeepsSorted(st: State, key: Key, ts: int, target: Key)
    requires RepliesSorted(st.threads)
    ensures RepliesSorted(ThreadReply(st, key, ts, target).threads)
  {
    var t3 := Attach(st.threads, key, ts, target);
    assert RepliesSorted(t3) by {
      forall x | x in t3
        ensures Sorted(t3[x].replies)
      {
        if x != key && x == target {
          assert RepliesOf(st.threads, target) == [] || Sorted(st.threads[target].replies);
        }
      }
    }
  }
}

=== FILE: wrappers.dfy ===
/** Optional values, results with an error message, and JavaScript
    truthiness of optional strings. */
module Wrappers {

  /** A value that may be absent (JavaScript `null` / `undefined`). */
  datatype Option<+T> = None | Some(value: T)

  /** The outcome of an operation that can be rejected with an error message. */
  datatype Result<+T, +E> = Ok(value: T) | Err(error: E)

  /** JavaScript truthiness of an optional string: present and non-empty. */
  predicate Truthy(o: Option<string>) {
    o.Some? && o.value != ""
  }
}
